=== FILE: README.md ===
# Draw engine model

A Dafny model of the draw engine of a tournament server. It covers the
handlers in `server/controllers/DrawController.js` that seat tickets at
tables and eliminate them:

- `generateTable`: the seat packer.
- `makeTable`: opens day 1 and packs it.
- `roomDraw`: eliminates down to three per table, then repacks the survivors
  into the next day.
- `endDay`: closes a day and counts the survivors.
- `finalRoom`: final selection and the winner ledger.
- `assignSatelliteTable`: promotes satellite winners into the main event and
  packs them.
- the status part of `create_Event`.

The database is an immutable `Store` value (`records.dfy`). Every collection
is a sequence in insertion order, and a query without a sort is taken to
return that order. A record's id is its index. The current
event's id is the number of archived events. Ticket ids are reused after
`create_Event` empties the tickets, where the source's ObjectIds never are,
so the seat lists of archived events name the new event's tickets. No
modelled handler reads those lists: the invariant bounds seat ids only for
tables of the current event, and the satellite guard reads table ids, not
seats. Each handler is one atomic
transition from a store to a store and a reply. A handler that dereferences
a missing record stops with `Crashed(fault)` and keeps what it had already
written, as the source does when it throws halfway through.

Every `Math.random()` draw is an oracle argument. A draw is a function from
the draw's position to a raw value, and the index taken is
`raw % remaining`, as in the source. Raw values are not restricted to the
range the source produces, so every property holds for any sequence of
draws.

Modules:

| file | module | contents |
|---|---|---|
| records.dfy | Records | records, queries (`find`, `findOne`, `count`), day and room lookups, ticket updates |
| table_ids.dfy | TableIds | table-id arithmetic: placements, room ranges, room count, next free id |
| seat_packer.dfy | SeatPacker | the packer shared by `generateTable` and `assignSatelliteTable`, with its loop invariants |
| elimination.dfy | Elimination | one table's draw and one room's draw |
| final_selection.dfy | FinalSelection | the final selection loop and the winner ledger |
| store_view.dfy | StoreView | day seats, the room-creation loop, the last day, counts, the store invariant `Valid` |
| day_handlers.dfy | DayHandlers | `generateTable`, `makeTable`, `roomDraw`, `endDay`, `finalRoom` |
| satellite_handler.dfy | SatelliteHandler | `assignSatelliteTable` |
| event_admin.dfy | EventAdmin | `create_Event` |

Behaviour of the code that the model keeps as written:

- Table ids are not based per room. `generateTable` makes one pass from id 0
  after creating `ceil(n/20000)` rooms.
- A room's `drawn` flag is never read by `roomDraw`, so a drawn room can be
  drawn again.
- `roomDraw` recomputes the day counters after every room, not once per day.
- Final selection compares the winner count with the target only between
  tables, never in the middle of one.
- A handler that throws on a missing record keeps the writes it already
  made.

## Model

All source paths are `server/controllers/DrawController.js`.

| member | source | states |
|---|---|---|
| Records.Query | server/controllers/DrawController.js:969 | a `find` returns exactly the ids of the wanted records, without repeats and in collection order |
| Records.FindDay | server/controllers/DrawController.js:706 | the day lookup returns the first day of the current event with that number, and None exactly when there is none |
| Records.FindRoom | server/controllers/DrawController.js:778 | the room lookup returns the first room with that number and day, and None exactly when there is none |
| Records.SetDays | server/controllers/DrawController.js:766-769 | setting the day of a list of ids changes exactly those tickets' day; ids with no ticket are ignored |
| TableIds.PlacementOf | server/controllers/DrawController.js:1016-1018 | the recorded room and table recompose the table id (`room*2000 + table == id`, `table < 2000`); the seat index is kept |
| TableIds.RoomCount | server/controllers/DrawController.js:978 | the room count is the ceiling of n/20000: enough rooms for n seats, and one fewer would not be enough |
| TableIds.NextFree | server/controllers/DrawController.js:996-1000 | the id-skipping loop stops at the least id `>= j` that no table uses |
| TableIds.RangeMatchesHistory | server/controllers/DrawController.js:750 | the room a draw selects and the room the history records agree on a table id exactly when the id is not a multiple of 2000 |
| TableIds.RangeOwner | server/controllers/DrawController.js:750 | every table id lies in exactly one room's draw range, except id 0, which lies in none and so is never drawn by a room draw |
| TableIds.SatelliteFirstTableDrawnElsewhere | server/controllers/DrawController.js:616 | a satellite room r > 0 starts packing at id 2000r; that table is recorded under room r but drawn with room r - 1 |
| SeatPacker.Scan | server/controllers/DrawController.js:1002-1048 | one inner scan keeps the packing invariant; it either seats a ticket or skips every ticket and counts them all in `avoid` |
| SeatPacker.Pack | server/controllers/DrawController.js:995-1068 | the packer terminates; seats written are a permutation of the queue; every table has 1..10 seats and at most 2 per user; ids are at least the base, strictly increasing and never taken; each seated ticket gains exactly one history entry |
| SeatPacker.PackedHistoriesOnly | server/controllers/DrawController.js:1009-1024 | a packing pass changes the queued tickets' histories and nothing else; the `day` write keeps its old value |
| SeatPacker.SingleOwnerSpreads | server/controllers/DrawController.js:1003-1005 | tickets of a single user fill at most two seats per table, so a pass needs at least half as many tables as tickets |
| SeatPacker.ShortTablesOutrunRooms | server/controllers/DrawController.js:978-993 | a pass of 4002..20000 tickets of one user provisions one room, yet its last table lands in a room number that this pass did not provision |
| Elimination.Advance | server/controllers/DrawController.js:755-761 | every seat of the table at day n moves to day n + 1; every other ticket is unchanged |
| Elimination.Cull | server/controllers/DrawController.js:763-772 | drawing `count` seats by splicing yields exactly `count` drawn seats, and the remainder plus the drawn seats is the pool as a multiset |
| Elimination.Losers | server/controllers/DrawController.js:763-772 | a table of L seats sends back exactly max(0, L - 3) of its own seats |
| Elimination.DrawTable | server/controllers/DrawController.js:752-772 | after one table's draw, a loser is on day n, another seat at day n is on day n + 1, and everything else is unchanged; only days change |
| Elimination.DrawKeepsThree | server/controllers/DrawController.js:752-772 | on a table of distinct seats at day n or n + 1, exactly min(L, 3) end on day n + 1 and max(0, L - 3) on day n |
| Elimination.RedrawReselects | server/controllers/DrawController.js:755-772 | drawing a table a second time gives the same tickets as drawing it once with the second draws |
| Elimination.DrawRoom | server/controllers/DrawController.js:750-774 | a room draw changes only days, leaves unseated tickets alone, and moves tickets only to day n or n + 1 |
| FinalSelection.FinalPicks | server/controllers/DrawController.js:831-833 | a final table with limit r keeps r + 1 seats, or all of them if it has no more |
| FinalSelection.FinalTableWins | server/controllers/DrawController.js:831-844 | on a table of distinct seats not yet won, exactly `FinalPicks(L, r)` seats move to the winners' day |
| FinalSelection.FinalPass | server/controllers/DrawController.js:828-847 | final selection changes only days, moves tickets only to the winners' day, leaves unseated tickets alone, and overshoots the target by at most 9 |
| FinalSelection.SingleTableIgnoresTarget | server/controllers/DrawController.js:828-833 | with a single table the count does not depend on the target, so a target of 0 still gives up to 9 winners |
| FinalSelection.NextTableSkipped | server/controllers/DrawController.js:842 | a table that gives up seats makes the loop skip the table below it |
| FinalSelection.AppendHoldings | server/controllers/DrawController.js:864-865 | appending an ordinal to a record adds it to that user's holdings only |
| FinalSelection.NewHoldings | server/controllers/DrawController.js:866-871 | a new one-ordinal record adds its ordinal to its user's holdings only |
| FinalSelection.RecordOf | server/controllers/DrawController.js:862 | the winner lookup finds a record of the user whatever its event, and None exactly when the user has no record |
| FinalSelection.Credit | server/controllers/DrawController.js:862-874 | crediting ordinal k to user u adds k to u's holdings only; a record is created exactly when u has none |
| FinalSelection.Ledger | server/controllers/DrawController.js:859-875 | after the ledger loop each user holds their old ordinals plus the positions (1-based) of their winning tickets; new records belong to this event and to users who had no record |
| FinalSelection.OldRecordAbsorbs | server/controllers/DrawController.js:862 | a user with an earlier event's record collects this event's ordinals in that record; no record of this event is created for them |
| StoreView.EnsureRooms | server/controllers/DrawController.js:980-993 | the room loop only appends rooms; afterwards every number in range has a room for the day, no other number changes, and every new room is listed on the day |
| StoreView.LastDay | server/controllers/DrawController.js:819 | the last-day lookup returns a day of the event with the highest number, and None exactly when the event has no day |
| StoreView.CountBeyond | server/controllers/DrawController.js:799 | the stored count equals the number of tickets whose day is past n |
| DayHandlers.Activated | server/controllers/DrawController.js:723-726 | a draft event (status 0) becomes active with status exactly 1; any other status is kept |
| DayHandlers.GenerateTable | server/controllers/DrawController.js:966-1070 | every wanted ticket gets exactly one more seat on the day; new tables are well packed with ids the day does not use; rooms are only appended; only histories change; the invariant is kept |
| DayHandlers.OpenDayOne | server/controllers/DrawController.js:706-719 | day 1 is found or appended, gets status 1 and entry equal to the ticket count, and is then the day the lookup finds |
| DayHandlers.MakeTable | server/controllers/DrawController.js:704-729 | day 1 is open with the ticket count; every day-1 main-round ticket gets one more seat on day 1, a second call seats it again; draft becomes active; status never decreases |
| DayHandlers.OpenNextDay | server/controllers/DrawController.js:739-748 | day n + 1 exists afterwards; a created day has no rooms; the lookup of day n is unchanged |
| DayHandlers.CloseRoom | server/controllers/DrawController.js:778-785 | only the drawn room is marked drawn; day n's winner and day n + 1's entry get the count; day references and room lists are kept |
| DayHandlers.WithDrawn | server/controllers/DrawController.js:750-774 | the tickets are exactly those the room draw `DrawRoom` computes for the room's tables, so only seated tickets move, between days n and n + 1; the invariant is kept |
| DayHandlers.Repack | server/controllers/DrawController.js:776 | packing day n + 1 keeps every ticket's day; every ticket on day n + 1 gets one more seat on that day; rooms and tables are only appended; the invariant is kept |
| DayHandlers.DrawAndRepack | server/controllers/DrawController.js:750-776 | every ticket ends on the day `DrawRoom` gives it, so each table of the room keeps at most three on day n + 1; after the draw and the repack, every ticket on day n + 1 has one more seat on that day, including survivors already seated there; stored tables are only appended, never rewritten; satellite tickets and winners are kept |
| DayHandlers.RoomDraw | server/controllers/DrawController.js:731-788 | succeeds exactly when day n and room r exist, whatever the drawn flag; day n + 1 exists; only tickets of the room move, between n and n + 1, each on the day `DrawRoom` gives it; counters equal the tickets past n; every day n + 1 ticket gets one more seat; stored tables are only appended, never rewritten; satellite tickets, winners and event status are unchanged |
| DayHandlers.EndDay | server/controllers/DrawController.js:790-813 | crashes when day n or day n + 1 is missing; otherwise day n gets status 2 and day n + 1 status 1, both counters equal the tickets past n, and a draft event becomes active; nothing else changes; status never decreases |
| DayHandlers.WinnerUsers | server/controllers/DrawController.js:859 | the winners list equals a plain in-order filter of the tickets on the winners' day (`UsersOn`), and lists each user once per winning ticket of theirs |
| DayHandlers.MarkDrawn | server/controllers/DrawController.js:849-854 | a room ends drawn exactly when it was drawn already or belongs to the final day; its number and day are kept |
| DayHandlers.CloseFinal | server/controllers/DrawController.js:849-880 | the final day's rooms are drawn, the day gets status 0 and the target as winner, the event is completed with the target and the ticket count; tables are kept |
| DayHandlers.FinalCredits | server/controllers/DrawController.js:859-875 | the final room's ledger credits each user exactly the ordinals of their winning tickets; new records are for users without one |
| DayHandlers.CloseFinalValid | server/controllers/DrawController.js:849-880 | the final writes keep the store invariant |
| DayHandlers.CloseFinalRaises | server/controllers/DrawController.js:877-880 | completing the event never lowers its status |
| DayHandlers.FinalSelected | server/controllers/DrawController.js:821-847 | the final selection over every table of the last day changes only days, moves tickets only to the winners' day and leaves unseated tickets alone |
| DayHandlers.FinalRoom | server/controllers/DrawController.js:815-883 | crashes without a current event or day; otherwise the tickets are those of the final selection `FinalSelected` (the `FinalPass` over the day's tables), so only seated tickets move, only to the winners' day; the writes are those of `CloseFinal`; status never decreases |
| SatelliteHandler.SatelliteOf | server/controllers/DrawController.js:547 | finds the satellite with the id, and None exactly when there is none |
| SatelliteHandler.ListedRoom | server/controllers/DrawController.js:563 | finds a room with the number among the day's listed rooms, and None exactly when there is none |
| SatelliteHandler.DayOneRoom | server/controllers/DrawController.js:563-573 | the room checked is the listed day-1 room with the number, present exactly when day 1 and such a room exist |
| SatelliteHandler.RangeCount | server/controllers/DrawController.js:579 | counts every table, of any day, whose id lies in the room's draw range |
| SatelliteHandler.GuardReply | server/controllers/DrawController.js:573-582 | "drawed" iff the listed room is drawn; a crash iff it is undrawn and the satellite is missing; "filled" iff the range holds at least 2000 - winners tables |
| SatelliteHandler.Admit | server/controllers/DrawController.js:549-572 | a room record is appended exactly when day 1 does not list the room; afterwards day 1 lists it; a missing day 1 starts with only that room |
| SatelliteHandler.Pool | server/controllers/DrawController.js:589 | the pool is exactly the satellite's tickets, without repeats |
| SatelliteHandler.MarkWon | server/controllers/DrawController.js:596-599 | a satellite ticket ends won exactly when it was won already or was picked; its user and satellite are kept |
| SatelliteHandler.CullDistinct | server/controllers/DrawController.js:594-608 | splicing picks distinct tickets of the pool |
| SatelliteHandler.Promotions | server/controllers/DrawController.js:596-607 | each pick is marked won and gains one new main ticket for its user, on day 1, tagged with the satellite |
| SatelliteHandler.PromoteWinners | server/controllers/DrawController.js:594-609 | `count` distinct pool tickets are picked and promoted; existing tickets are kept |
| SatelliteHandler.SatellitePack | server/controllers/DrawController.js:611-686 | the satellite packer is `Pack` from base 2000r with every used id taken: all satellite tickets are seated once, ids are fresh across all days |
| SatelliteHandler.Finish | server/controllers/DrawController.js:688-697 | day 1 is saved with the ticket count as entry; exactly the satellite is closed |
| SatelliteHandler.PackAndClose | server/controllers/DrawController.js:611-697 | every main ticket of the satellite gets one more seat on day 1; new tables are fresh; the satellite closes |
| SatelliteHandler.PromoteAndPack | server/controllers/DrawController.js:589-697 | with winners <= pool, exactly `winners` tickets are promoted, then packed, then the satellite closes; otherwise the pool runs dry and the handler crashes after all promotions |
| SatelliteHandler.AssignSatelliteTable | server/controllers/DrawController.js:539-702 | guard replies write nothing; an empty pool answers OK with only the room written; otherwise promotion and packing as above; the invariant holds; status never decreases |
| EventAdmin.EventEntries | server/controllers/DrawController.js:418 | equals the number of tickets of the event |
| EventAdmin.CreateEvent | server/controllers/DrawController.js:412-441 | the current event is archived with status 3 and its ticket count; a fresh event opens at status 0; all tickets are deleted; status never decreases |
| EventAdmin.NewEventHasNoDays | server/controllers/DrawController.js:427-433 | the new event has no day, so a day lookup finds none |
| EventAdmin.NewEventHasNoTables | server/controllers/DrawController.js:427-433 | no table belongs to the new event |

## Left out

- Read endpoints, payment, authentication, mock data, `create_sEvent`,
  `create_mEvent`, `get_tickets`, `sendEmailToAdmin` and `resetPassword`:
  they are query plumbing, external calls, or plain field writes.
- `User.deleteMany` in `create_Event`: users are not part of the store.
- The distribution and range of `Math.random()`: each draw is an arbitrary
  raw value. Properties are proved for every value, so results about
  uniformity are out of scope.
- Async persistence, request interleaving and races: each handler is one
  atomic transition.
- Mongoose casting quirks: the string `daynumber` in `endDay` is a number
  here; `findOne().count()` in `roomDraw` counts all matching tickets;
  `day.status = false` in `finalRoom` is stored as 0.
- The schema files are not part of this model. A fresh ticket plays day 1
  and a fresh day has status 0 and zero counters (`FreshTicketDay`,
  `FreshDayStatus`).
- EventAdmin.CreateEvent: the archived winner count (tickets whose `status`
  flag is set) is the parameter `flagged`. No modelled handler sets that
  flag.
- SatelliteHandler.AssignSatelliteTable: a new day 1 is saved only at the
  end of the handler. When the pool is empty the room record points at a day
  that was never saved. Days are identified by event and number, so the
  model cannot tell that room from one of a later day 1.
- DayHandlers.FinalRoom: it ties the tickets to `FinalPass` but does not
  restate the pass's overshoot and skip properties. Those are stated on
  `FinalPass` itself.
- SeatPacker.Pack: termination is proved by the loop's `decreases` clause.
  The finer bound of one list shrink every three outer iterations is not
  stated.
- Unsorted queries: `find` without a sort is assumed to return records in
  insertion order. The database does not promise this. The ledger ordinals
  (`DrawController.js:859`) and which tables `finalRoom` skips
  (`DrawController.js:821`, `:828`) depend on that order.
- DayHandlers.FinalRoom: the target is a `nat`. The source takes it from
  `Number(req.params.id)` (`DrawController.js:816`). A negative or
  non-numeric id gives no picks there, because `total <= finalwinner` is
  false at once, and stores a negative or `NaN` winner count. The model
  cannot express either value.

=== FILE: day_handlers.dfy ===
/** The day pipeline of the draw controller: `generateTable`, `makeTable`,
    `roomDraw`, `endDay` and `finalRoom`, as transformations of the store.
    A handler that dereferences a missing record stops with `Crashed`,
    keeping whatever it had already written. */
module DayHandlers {
  import opened Records
  import opened TableIds
  import opened SeatPacker
  import opened Elimination
  import opened FinalSelection
  import opened StoreView

  /** The event status a day handler leaves behind: Draft becomes Active. */
  function Activated(status: nat): (r: nat)
    ensures status <= r && r >= 1 && (status >= 1 ==> r == status)
    ensures status == 0 ==> r == 1
  {
    if status == 0 then 1 else status
  }

  /** The store after a packing pass of day `di`: rooms and the day's room
      list from the room loop, tickets and tables from the packer. */
  function WithPacked(s: Store, di: nat, rooms: (seq<Room>, seq<nat>), tks: seq<Ticket>, made: seq<Table>): Store
    requires di < |s.days|
  {
    s.(tickets := tks, tables := s.tables + made, rooms := rooms.0,
       days := s.days[di := s.days[di].(rooms := rooms.1)])
  }

  /** The room side of a packing pass: rooms are only appended, all of them
      unused rooms of the day, and every room the pass needs exists. */
  lemma PackedRooms(s: Store, di: nat, count: nat, tks: seq<Ticket>, made: seq<Table>)
    requires di < |s.days|
    ensures var s' := WithPacked(s, di, EnsureRooms(s.rooms, s.days[di].rooms, s.days[di].ref, 0, count), tks, made);
            && |s'.days| == |s.days| && s'.days[di] == s.days[di].(rooms := s'.days[di].rooms)
            && (forall e :: 0 <= e < |s.days| && e != di ==> s'.days[e] == s.days[e])
            && |s.rooms| <= |s'.rooms| && s'.rooms[..|s.rooms|] == s.rooms
            && (forall x :: |s.rooms| <= x < |s'.rooms| ==> s'.rooms[x].day == s.days[di].ref && !s'.rooms[x].drawn)
            && (forall k: nat :: k < count ==> HasRoom(s'.rooms, k, s.days[di].ref))
            && (RoomListsOk(s) ==> RoomListsOk(s'))
  {
    var rooms := EnsureRooms(s.rooms, s.days[di].rooms, s.days[di].ref, 0, count);
    var s' := WithPacked(s, di, rooms, tks, made);
    if RoomListsOk(s) {
      forall e, k | 0 <= e < |s'.days| && 0 <= k < |s'.days[e].rooms| ensures s'.days[e].rooms[k] < |s'.rooms| {
        if e == di && k < |s.days[di].rooms| {
          assert s'.days[e].rooms[k] == rooms.1[..|s.days[di].rooms|][k];
        }
      }
    }
  }

  /** `generateTable`: packs the tickets `wanted` accepts into new tables of
      the day at index `di` (base id 0, skipping the ids that day already
      uses), after creating the rooms `0..ceil(n/20000)-1` it lacks. */
  method GenerateTable(s: Store, di: nat, wanted: Ticket -> bool) returns (s': Store, made: seq<Table>)
    requires di < |s.days|
    ensures s'.past == s.past && s'.current == s.current && s'.satTickets == s.satTickets && s'.winners == s.winners
    ensures OnlyHistoriesDiffer(s.tickets, s'.tickets)
    ensures |s'.days| == |s.days| && s'.days[di] == s.days[di].(rooms := s'.days[di].rooms)
    ensures forall e :: 0 <= e < |s.days| && e != di ==> s'.days[e] == s.days[e]
    ensures s'.tables == s.tables + made
    // every wanted ticket gets exactly one more seat on the day
    ensures multiset(DaySeats(s'.tables, s.days[di].ref)) ==
            multiset(DaySeats(s.tables, s.days[di].ref)) + multiset(Query(s.tickets, wanted))
    ensures forall x :: 0 <= x < |made| ==> WellPacked(s.tickets, made[x], s.days[di].ref)
    ensures forall x :: 0 <= x < |made| ==> made[x].id !in DayIds(s.tables, s.days[di].ref)
    ensures |s.rooms| <= |s'.rooms| && s'.rooms[..|s.rooms|] == s.rooms
    ensures forall x :: |s.rooms| <= x < |s'.rooms| ==> s'.rooms[x].day == s.days[di].ref && !s'.rooms[x].drawn
    ensures forall k: nat :: k < RoomCount(|Query(s.tickets, wanted)|) ==> HasRoom(s'.rooms, k, s.days[di].ref)
    ensures Valid(s) && s.current.Some? && s.days[di].ref.event == |s.past| ==> Valid(s')
  {
    var d := s.days[di].ref;
    var queue := Query(s.tickets, wanted);
    var rooms := EnsureRooms(s.rooms, s.days[di].rooms, d, 0, RoomCount(|queue|));
    var tks;
    tks, made := Pack(s.tickets, queue, 0, DayIds(s.tables, d), d);
    PackedHistoriesOnly(s.tickets, queue, made, tks);
    DaySeatsAppend(s.tables, made, d);
    PackedRooms(s, di, RoomCount(|queue|), tks, made);
    s' := WithPacked(s, di, rooms, tks, made);
    if Valid(s) && s.current.Some? && d.event == |s.past| {
      AppendTablesValid(s, made, d, s');
    }
  }

  /** The tickets of the main round's first day. */
  predicate MainRound(t: Ticket) {
    t.day == 1 && t.satellite.None?
  }

  /** Day 1 of the current event, opened with the ticket count as its
      entry: the existing record is updated, or a new one is appended. */
  function OpenDayOne(s: Store): (r: (Store, nat))
    ensures r.0 == s.(days := r.0.days) && |s.days| <= |r.0.days|
    ensures FindDay(r.0, 1) == Some(r.1)
    ensures r.0.days[r.1].status == 1 && r.0.days[r.1].entry == |s.tickets|
    ensures FindDay(s, 1).Some? ==> r.1 == FindDay(s, 1).value && |r.0.days| == |s.days|
    ensures FindDay(s, 1).None? ==> r.1 == |s.days| && r.0.days == s.days + [Day(CurrentDay(s, 1), 1, |s.tickets|, 0, [])]
    ensures forall e :: 0 <= e < |s.days| && e != r.1 ==> r.0.days[e] == s.days[e]
    ensures Valid(s) ==> Valid(r.0)
  {
    match FindDay(s, 1)
    case Some(di) =>
      var s1 := s.(days := s.days[di := s.days[di].(entry := |s.tickets|, status := 1)]);
      FindDaySameRefs(s, s1, 1);
      assert Valid(s) ==> Valid(s1) by {
        if Valid(s) { ValidFrame(s, s1); }
      }
      (s1, di)
    case None =>
      var created := Day(CurrentDay(s, 1), 1, |s.tickets|, 0, []);
      var s1 := s.(days := s.days + [created]);
      FindDayAppended(s, s1, 1, created);
      assert Valid(s) ==> Valid(s1) by {
        if Valid(s) { RoomListsGrow(s, s1); ValidFrame(s, s1); }
      }
      (s1, |s.days|)
  }

  /** `makeTable`: opens day 1 (creating it when missing) with the ticket
      count as its entry, packs every main-round ticket of day 1, and
      activates a draft event. */
  method MakeTable(s: Store) returns (s': Store, reply: Reply)
    ensures s.current.None? ==> s' == s && reply == Crashed(NoEvent)
    ensures s.current.Some? ==> reply == Ok
    ensures s.current.Some? ==>
              && s'.past == s.past && s'.satTickets == s.satTickets && s'.winners == s.winners
              && s'.current == Some(s.current.value.(status := Activated(s.current.value.status)))
              && FindDay(s', 1).Some?
              && s'.days[FindDay(s', 1).value].status == 1
              && s'.days[FindDay(s', 1).value].entry == |s.tickets|
              && OnlyHistoriesDiffer(s.tickets, s'.tickets)
    // a second call seats every day-1 main-round ticket a second time
    ensures s.current.Some? ==>
              multiset(DaySeats(s'.tables, CurrentDay(s, 1))) ==
              multiset(DaySeats(s.tables, CurrentDay(s, 1))) + multiset(Query(s.tickets, MainRound))
    ensures Valid(s) ==> Valid(s')
    ensures StatusRaised(s, s')
  {
    if s.current.None? {
      return s, Crashed(NoEvent);
    }
    var ev := s.current.value;
    var first := OpenDayOne(s);
    var s1 := first.0;
    var di := first.1;
    var s2, made := GenerateTable(s1, di, MainRound);
    FindDaySameRefs(s1, s2, 1);
    s' := s2.(current := Some(ev.(status := Activated(ev.status))));
    FindDaySameRefs(s2, s', 1);
    if Valid(s) {
      ValidFrame(s2, s');
    }
    reply := Ok;
  }

  /** The seat lists a room draw loads: the tables of day `d` whose ids lie
      in room `r`'s range, in collection order. */
  function RoomTables(ts: seq<Table>, d: DayRef, r: nat): seq<seq<nat>> {
    SeatLists(ts, (tb: Table) => tb.day == d && InRoomRange(tb.id, r))
  }

  /** Room records appended for another day leave a room lookup unchanged. */
  lemma FindRoomExtended(rooms: seq<Room>, more: seq<Room>, k: nat, d: DayRef)
    requires forall x :: 0 <= x < |more| ==> more[x].day != d
    ensures FindRoom(rooms + more, k, d) == FindRoom(rooms, k, d)
  {
    var a := FindRoom(rooms + more, k, d);
    var b := FindRoom(rooms, k, d);
    assert forall x :: 0 <= x < |rooms| ==> (rooms + more)[x] == rooms[x];
    assert forall x :: |rooms| <= x < |rooms + more| ==> (rooms + more)[x] == more[x - |rooms|];
    if b.Some? {
      assert a.Some? && a.value <= b.value;
    }
  }

  /** The first writes of a room draw: day `n + 1` is created when
      missing. Returns the store and the index of day `n + 1`. */
  function OpenNextDay(s: Store, n: nat): (r: (Store, nat))
    ensures r.0 == s.(days := r.0.days)
    ensures |s.days| <= |r.0.days| && (forall e :: 0 <= e < |s.days| ==> r.0.days[e] == s.days[e])
    ensures forall e :: |s.days| <= e < |r.0.days| ==> r.0.days[e].rooms == []
    ensures FindDay(r.0, n + 1) == Some(r.1) && FindDay(r.0, n) == FindDay(s, n)
  {
    match FindDay(s, n + 1)
    case Some(x) => (s, x)
    case None =>
      var created := Day(CurrentDay(s, n + 1), FreshDayStatus, 0, 0, []);
      var s1 := s.(days := s.days + [created]);
      FindDayAppended(s, s1, n + 1, created);
      FindDayAppended(s, s1, n, created);
      (s1, |s.days|)
  }

  /** The last writes of a room draw: room `room` marked drawn, `count`
      stored as the winners of day `di` and the entry of day `next`. */
  function CloseRoom(s: Store, di: nat, next: nat, room: nat, count: nat): (r: Store)
    requires di < |s.days| && next < |s.days| && di != next && room < |s.rooms|
    ensures r == s.(rooms := r.rooms, days := r.days)
    ensures |r.rooms| == |s.rooms| && r.rooms[room] == s.rooms[room].(drawn := true)
    ensures forall x :: 0 <= x < |s.rooms| && x != room ==> r.rooms[x] == s.rooms[x]
    ensures |r.days| == |s.days| && r.days[di].winner == count && r.days[next].entry == count
    ensures forall e :: 0 <= e < |s.days| ==> r.days[e].ref == s.days[e].ref && r.days[e].rooms == s.days[e].rooms
    ensures RoomListsOk(s) ==> RoomListsOk(r)
  {
    var days := s.days[di := s.days[di].(winner := count)];
    s.(rooms := s.rooms[room := s.rooms[room].(drawn := true)],
       days := days[next := days[next].(entry := count)])
  }

  /** Rooms appended for another day leave the lookup of day `d`'s rooms
      unchanged. */
  lemma RoomLookupKept(rooms: seq<Room>, rooms': seq<Room>, k: nat, d: DayRef)
    requires |rooms| <= |rooms'| && rooms'[..|rooms|] == rooms
    requires forall x :: |rooms| <= x < |rooms'| ==> rooms'[x].day != d
    ensures FindRoom(rooms', k, d) == FindRoom(rooms, k, d)
  {
    assert rooms' == rooms + rooms'[|rooms|..];
    FindRoomExtended(rooms, rooms'[|rooms|..], k, d);
  }

  /** Rewriting histories keeps the moves of a round. */
  lemma HistoriesKeepMoves(a: seq<Ticket>, b: seq<Ticket>, c: seq<Ticket>, tabs: seq<seq<nat>>, n: nat)
    requires RoundMoves(a, b, tabs, n) && OnlyHistoriesDiffer(b, c)
    ensures RoundMoves(a, c, tabs, n)
  {
  }

  /** Every ticket of `c` is on the same day as the same ticket of `b`. */
  predicate SameDays(b: seq<Ticket>, c: seq<Ticket>) {
    |c| == |b| && forall t :: 0 <= t < |b| ==> c[t].day == b[t].day
  }

  /** Rewriting histories keeps every ticket's day. */
  lemma HistoriesKeepDays(b: seq<Ticket>, c: seq<Ticket>)
    requires OnlyHistoriesDiffer(b, c)
    ensures SameDays(b, c)
  {
  }

  /** The store after the tables of room `r` of day `n` drew. */
  function WithDrawn(s: Store, n: nat, r: nat, draw: (nat, nat) -> nat): (s': Store)
    ensures s' == s.(tickets := s'.tickets)
    ensures RoundMoves(s.tickets, s'.tickets, RoomTables(s.tables, CurrentDay(s, n), r), n)
    ensures var tabs := RoomTables(s.tables, CurrentDay(s, n), r);
            s'.tickets == DrawRoom(s.tickets, tabs, n, draw, |tabs|)
    ensures Valid(s) ==> Valid(s')
  {
    var tabs := RoomTables(s.tables, CurrentDay(s, n), r);
    var s' := s.(tickets := DrawRoom(s.tickets, tabs, n, draw, |tabs|));
    assert Valid(s) ==> Valid(s') by {
      if Valid(s) {
        ValidFrame(s, s');
      }
    }
    s'
  }

  /** The repack of a room draw: every ticket on day `n + 1` (the day at
      index `next`) is packed into new tables of that day. Days are kept, so
      the tickets packed are the ones on day `n + 1` afterwards. */
  method Repack(s: Store, n: nat, next: nat) returns (s': Store)
    requires s.current.Some? && next < |s.days| && s.days[next].ref == CurrentDay(s, n + 1)
    ensures s'.past == s.past && s'.current == s.current && s'.satTickets == s.satTickets && s'.winners == s.winners
    ensures SameDays(s.tickets, s'.tickets) && OnlyHistoriesDiffer(s.tickets, s'.tickets)
    ensures |s'.days| == |s.days| && forall e :: 0 <= e < |s.days| ==> s'.days[e].ref == s.days[e].ref
    ensures |s.rooms| <= |s'.rooms| && s'.rooms[..|s.rooms|] == s.rooms
    ensures forall x :: |s.rooms| <= x < |s'.rooms| ==> s'.rooms[x].day == CurrentDay(s, n + 1)
    ensures |s.tables| <= |s'.tables| && s'.tables[..|s.tables|] == s.tables
    ensures multiset(DaySeats(s'.tables, CurrentDay(s, n + 1))) ==
            multiset(DaySeats(s.tables, CurrentDay(s, n + 1))) + multiset(Query(s'.tickets, (t: Ticket) => t.day == n + 1))
    ensures Valid(s) ==> Valid(s')
  {
    var made;
    s', made := GenerateTable(s, next, (t: Ticket) => t.day == n + 1);
    HistoriesKeepDays(s.tickets, s'.tickets);
    QueryAgrees(s.tickets, (t: Ticket) => t.day == n + 1, s'.tickets, (t: Ticket) => t.day == n + 1);
    assert s'.tables[..|s.tables|] == s.tables;
  }

  /** The middle of a room draw, once day `n + 1` exists at index `next`:
      the tables of room `r` of day `n` draw, and the tickets then on day
      `n + 1` are packed into new tables of that day. */
  method DrawAndRepack(s: Store, n: nat, r: nat, draw: (nat, nat) -> nat, next: nat) returns (s': Store)
    requires s.current.Some? && next < |s.days| && s.days[next].ref == CurrentDay(s, n + 1)
    ensures s'.past == s.past && s'.current == s.current
    ensures RoundMoves(s.tickets, s'.tickets, RoomTables(s.tables, CurrentDay(s, n), r), n)
    // the days are exactly those of the room draw: three or fewer per table go on to day n + 1
    ensures var tabs := RoomTables(s.tables, CurrentDay(s, n), r);
            SameDays(DrawRoom(s.tickets, tabs, n, draw, |tabs|), s'.tickets)
    ensures |s'.days| == |s.days| && forall e :: 0 <= e < |s.days| ==> s'.days[e].ref == s.days[e].ref
    ensures FindRoom(s'.rooms, r, CurrentDay(s, n)) == FindRoom(s.rooms, r, CurrentDay(s, n))
    ensures multiset(DaySeats(s'.tables, CurrentDay(s, n + 1))) ==
            multiset(DaySeats(s.tables, CurrentDay(s, n + 1))) + multiset(Query(s'.tickets, (t: Ticket) => t.day == n + 1))
    // stored seat lists are never rewritten: tables are only appended; satellite tickets and winners are kept
    ensures s'.satTickets == s.satTickets && s'.winners == s.winners
    ensures |s.tables| <= |s'.tables| && s'.tables[..|s.tables|] == s.tables
    ensures Valid(s) ==> Valid(s')
  {
    var d := CurrentDay(s, n);
    var tabs := RoomTables(s.tables, d, r);
    var s2 := WithDrawn(s, n, r, draw);
    s' := Repack(s2, n, next);
    HistoriesKeepMoves(s.tickets, s2.tickets, s'.tickets, tabs, n);
    RoomLookupKept(s.rooms, s'.rooms, r, d);
  }

  /** `roomDraw`: creates day `n + 1` if missing, draws every table of room
      `r` of day `n` (no check that the room was already drawn), packs every
      ticket now on day `n + 1` into new tables of that day, marks the room
      drawn and stores the number of tickets past day `n` on both days. */
  method RoomDraw(s: Store, n: nat, r: nat, draw: (nat, nat) -> nat) returns (s': Store, reply: Reply)
    ensures reply.Ok? || reply.Crashed?
    ensures s.current.None? ==> s' == s && reply == Crashed(NoEvent)
    ensures s.current.Some? ==> FindDay(s', n + 1).Some? && s'.current == s.current && s'.past == s.past
    ensures s.current.Some? && FindDay(s, n).None? ==>
              reply == Crashed(NoDay) && s'.tickets == s.tickets && s'.tables == s.tables && s'.rooms == s.rooms
    ensures s.current.Some? && FindDay(s, n).Some? ==>
              (reply == Ok <==> FindRoom(s.rooms, r, CurrentDay(s, n)).Some?)
    ensures reply == Ok ==>
              && FindDay(s, n).Some? && FindRoom(s.rooms, r, CurrentDay(s, n)).Some?
              && FindDay(s, n).value < |s'.days| && FindRoom(s.rooms, r, CurrentDay(s, n)).value < |s'.rooms|
              && s'.rooms[FindRoom(s.rooms, r, CurrentDay(s, n)).value].drawn
    ensures reply == Ok ==>
              var count := Beyond(s'.tickets, n);
              && FindDay(s, n).Some? && FindDay(s, n).value < |s'.days|
              && s'.days[FindDay(s, n).value].winner == count
              && s'.days[FindDay(s', n + 1).value].entry == count
    // only tickets seated in the room move, and only between days n and n + 1
    ensures reply == Ok ==> RoundMoves(s.tickets, s'.tickets, RoomTables(s.tables, CurrentDay(s, n), r), n)
    // the days are exactly those of the room draw: three or fewer per table go on to day n + 1
    ensures reply == Ok ==>
              var tabs := RoomTables(s.tables, CurrentDay(s, n), r);
              SameDays(DrawRoom(s.tickets, tabs, n, draw, |tabs|), s'.tickets)
    // every ticket on day n + 1 gets one more seat on that day, so a redraw seats winners twice
    ensures reply == Ok ==>
              multiset(DaySeats(s'.tables, CurrentDay(s, n + 1))) ==
              multiset(DaySeats(s.tables, CurrentDay(s, n + 1))) + multiset(Query(s'.tickets, (t: Ticket) => t.day == n + 1))
    // stored seat lists are never rewritten: tables are only appended; satellite tickets and winners are kept
    ensures s'.satTickets == s.satTickets && s'.winners == s.winners
    ensures |s.tables| <= |s'.tables| && s'.tables[..|s.tables|] == s.tables
    ensures Valid(s) ==> Valid(s')
  {
    if s.current.None? {
      return s, Crashed(NoEvent);
    }
    var first := OpenNextDay(s, n);
    var s1, next := first.0, first.1;
    if Valid(s) {
      RoomListsGrow(s, s1);
      ValidFrame(s, s1);
    }
    if FindDay(s, n).None? {
      return s1, Crashed(NoDay);
    }
    var di := FindDay(s, n).value;
    var d := CurrentDay(s, n);
    var s3 := DrawAndRepack(s1, n, r, draw, next);
    FindDaySameRefs(s1, s3, n);
    FindDaySameRefs(s1, s3, n + 1);
    var room := FindRoom(s3.rooms, r, d);
    if room.None? {
      return s3, Crashed(NoRoom);
    }
    var count := CountBeyond(s3.tickets, n);
    s' := CloseRoom(s3, di, next, room.value, count);
    FindDaySameRefs(s3, s', n + 1);
    QueryAgrees(s3.tickets, (t: Ticket) => t.day == n + 1, s'.tickets, (t: Ticket) => t.day == n + 1);
    if Valid(s) {
      ValidFrame(s3, s');
    }
    reply := Ok;
  }

  /** `endDay`: closes day `n` (status 2), opens day `n + 1` (status 1),
      stores the number of tickets past day `n` on both, and activates a
      draft event. Either day missing stops the handler before any write. */
  function EndDay(s: Store, n: nat): (r: (Store, Reply))
    ensures s.current.None? ==> r == (s, Crashed(NoEvent))
    ensures s.current.Some? && FindDay(s, n).None? ==> r == (s, Crashed(NoDay))
    ensures s.current.Some? && FindDay(s, n).Some? && FindDay(s, n + 1).None? ==> r == (s, Crashed(NoNextDay))
    ensures r.1 == Ok <==> s.current.Some? && FindDay(s, n).Some? && FindDay(s, n + 1).Some?
    ensures r.1 == Ok ==>
              var d := FindDay(s, n).value;
              var e := FindDay(s, n + 1).value;
              var count := Beyond(s.tickets, n);
              && |r.0.days| == |s.days|
              && r.0.days[d] == s.days[d].(status := 2, winner := count)
              && r.0.days[e] == s.days[e].(status := 1, entry := count)
              && (forall x :: 0 <= x < |s.days| && x != d && x != e ==> r.0.days[x] == s.days[x])
              && r.0.current == Some(s.current.value.(status := Activated(s.current.value.status)))
              && r.0 == s.(days := r.0.days, current := r.0.current)
    ensures Valid(s) ==> Valid(r.0)
    ensures StatusRaised(s, r.0)
  {
    if s.current.None? then (s, Crashed(NoEvent))
    else
      var d := FindDay(s, n);
      var e := FindDay(s, n + 1);
      if d.None? then (s, Crashed(NoDay))
      else if e.None? then (s, Crashed(NoNextDay))
      else
        var count := CountBeyond(s.tickets, n);
        assert d.value != e.value by {
          assert s.days[d.value].ref.number != s.days[e.value].ref.number;
        }
        var days := s.days[d.value := s.days[d.value].(status := 2, winner := count)];
        var days' := days[e.value := days[e.value].(status := 1, entry := count)];
        var ev := s.current.value;
        var s' := s.(days := days', current := Some(ev.(status := Activated(ev.status))));
        assert Valid(s) ==> Valid(s') by {
          if Valid(s) {
            RoomListsGrow(s, s');
            ValidFrame(s, s');
          }
        }
        (s', Ok)
  }

  /** The users of the tickets `tks[..n]` on day `won`, in ticket order: a
      plain filter, the reference for the winners list. */
  function UsersOn(tks: seq<Ticket>, won: nat, n: nat): seq<nat>
    requires n <= |tks|
  {
    if n == 0 then []
    else UsersOn(tks, won, n - 1) + (if tks[n - 1].day == won then [tks[n - 1].user] else [])
  }

  /** The winners query lists, pick by pick, the users `UsersOn` lists. */
  lemma {:induction false} SelectUsers(tks: seq<Ticket>, won: nat, wanted: Ticket -> bool, n: nat)
    requires n <= |tks|
    requires forall t :: wanted(t) == (t.day == won)
    ensures var ids := Select(tks, wanted, n);
            |UsersOn(tks, won, n)| == |ids| && forall k :: 0 <= k < |ids| ==> UsersOn(tks, won, n)[k] == tks[ids[k]].user
    decreases n
  {
    if n > 0 {
      SelectUsers(tks, won, wanted, n - 1);
      var prev := Select(tks, wanted, n - 1);
      var us := UsersOn(tks, won, n - 1);
      if tks[n - 1].day == won {
        var ids := Select(tks, wanted, n);
        assert ids == prev + [n - 1];
        assert UsersOn(tks, won, n) == us + [tks[n - 1].user];
        forall k | 0 <= k < |ids| ensures UsersOn(tks, won, n)[k] == tks[ids[k]].user {
          if k < |prev| {
            assert ids[k] == prev[k] && UsersOn(tks, won, n)[k] == us[k];
          }
        }
      } else {
        assert Select(tks, wanted, n) == prev;
        assert UsersOn(tks, won, n) == us;
      }
    }
  }

  /** The tickets of `u` on day `won` among `tks[..n]`. */
  function WonBy(tks: seq<Ticket>, won: nat, u: nat, n: nat): set<nat>
    requires n <= |tks|
  {
    set t | 0 <= t < n && tks[t].day == won && tks[t].user == u
  }

  /** 1 when ticket `t` is a ticket of `u` on day `won`, else 0. */
  function Hit(tks: seq<Ticket>, won: nat, u: nat, t: nat): nat
    requires t < |tks|
  {
    if tks[t].day == won && tks[t].user == u then 1 else 0
  }

  lemma WonBySnoc(tks: seq<Ticket>, won: nat, u: nat, n: nat)
    requires 0 < n <= |tks|
    ensures |WonBy(tks, won, u, n)| == |WonBy(tks, won, u, n - 1)| + Hit(tks, won, u, n - 1)
  {
    var a := WonBy(tks, won, u, n);
    var b := WonBy(tks, won, u, n - 1);
    forall t | t in a && t != n - 1 ensures t in b {
      assert t < n;
    }
    if tks[n - 1].day == won && tks[n - 1].user == u {
      assert a == b + {n - 1};
    } else {
      assert a == b;
    }
  }

  lemma UsersOnSnoc(tks: seq<Ticket>, won: nat, u: nat, n: nat)
    requires 0 < n <= |tks|
    ensures multiset(UsersOn(tks, won, n))[u] == multiset(UsersOn(tks, won, n - 1))[u] + Hit(tks, won, u, n - 1)
  {
    var prev := UsersOn(tks, won, n - 1);
    if tks[n - 1].day == won {
      assert multiset(UsersOn(tks, won, n)) == multiset(prev) + multiset{tks[n - 1].user};
    } else {
      assert UsersOn(tks, won, n) == prev;
    }
  }

  /** `UsersOn` lists user `u` once per ticket of `u` on day `won`. */
  lemma {:induction false} UsersOnCount(tks: seq<Ticket>, won: nat, u: nat, n: nat)
    requires n <= |tks|
    ensures multiset(UsersOn(tks, won, n))[u] == |WonBy(tks, won, u, n)|
  {
    if n > 0 {
      UsersOnCount(tks, won, u, n - 1);
      WonBySnoc(tks, won, u, n);
      UsersOnSnoc(tks, won, u, n);
    }
  }

  /** The users of the tickets on day `won`, in collection order: the
      winners list the ledger walks. */
  function WinnerUsers(tks: seq<Ticket>, won: nat): (users: seq<nat>)
    ensures users == UsersOn(tks, won, |tks|)
    ensures forall u :: multiset(users)[u] == |WonBy(tks, won, u, |tks|)|
  {
    var wanted := (t: Ticket) => t.day == won;
    var ids := Query(tks, wanted);
    SelectUsers(tks, won, wanted, |tks|);
    assert forall u :: multiset(UsersOn(tks, won, |tks|))[u] == |WonBy(tks, won, u, |tks|)| by {
      forall u ensures multiset(UsersOn(tks, won, |tks|))[u] == |WonBy(tks, won, u, |tks|)| {
        UsersOnCount(tks, won, u, |tks|);
      }
    }
    seq(|ids|, k requires 0 <= k < |ids| => tks[ids[k]].user)
  }

  /** Every room of day `d` marked drawn. */
  function MarkDrawn(rooms: seq<Room>, d: DayRef): (r: seq<Room>)
    ensures |r| == |rooms|
    ensures forall x :: 0 <= x < |rooms| ==>
              && r[x].drawn == (rooms[x].drawn || rooms[x].day == d)
              && r[x].number == rooms[x].number && r[x].day == rooms[x].day
  {
    seq(|rooms|, x requires 0 <= x < |rooms| => if rooms[x].day == d then rooms[x].(drawn := true) else rooms[x])
  }

  /** The seat lists the final room loads: every table of day `d`. */
  function FinalTables(ts: seq<Table>, d: DayRef): seq<seq<nat>> {
    SeatLists(ts, (tb: Table) => tb.day == d)
  }

  /** The writes after the final selection, given the selected tickets
      `tks`: the day's rooms drawn, the day reset, the ledger credited and
      the event completed. */
  function CloseFinal(s: Store, di: nat, target: nat, tks: seq<Ticket>): (r: Store)
    requires s.current.Some? && di < |s.days| && OnlyDaysDiffer(s.tickets, tks)
    ensures var d := s.days[di].ref;
            && r.tickets == tks
            && r.current == Some(s.current.value.(status := 2, winner := target, entry := |s.tickets|))
            && |r.rooms| == |s.rooms|
            && (forall x :: 0 <= x < |s.rooms| && s.rooms[x].day == d ==>
                  r.rooms[x].drawn && r.rooms[x].number == s.rooms[x].number && r.rooms[x].day == d)
            && (forall x :: 0 <= x < |s.rooms| && s.rooms[x].day != d ==> r.rooms[x] == s.rooms[x])
            && r.days == s.days[di := s.days[di].(status := 0, winner := target)]
            && r.tables == s.tables && r.past == s.past && r.satTickets == s.satTickets
  {
    var d := s.days[di].ref;
    var users := WinnerUsers(tks, d.number + 1);
    var ev := s.current.value;
    var ws := Ledger(s.winners, users, |s.past|, |users|);
    s.(tickets := tks,
       rooms := MarkDrawn(s.rooms, d),
       days := s.days[di := s.days[di].(status := 0, winner := target)],
       winners := ws,
       current := Some(ev.(status := 2, winner := target, entry := |tks|)))
  }

  /** Completing the event credits each user, in the ledger, exactly the
      1-based positions their tickets hold among the winners, and writes
      new records only for users who had none. */
  lemma FinalCredits(s: Store, di: nat, target: nat, tks: seq<Ticket>)
    requires s.current.Some? && di < |s.days| && OnlyDaysDiffer(s.tickets, tks)
    ensures var users := WinnerUsers(tks, s.days[di].ref.number + 1);
            var ws := CloseFinal(s, di, target, tks).winners;
            && (forall v :: Holdings(ws, v) == Holdings(s.winners, v) + Ordinals(users, v, |users|))
            && |s.winners| <= |ws|
            && (forall x :: |s.winners| <= x < |ws| ==> ws[x].event == |s.past| && RecordOf(s.winners, ws[x].user).None?)
  {
    var users := WinnerUsers(tks, s.days[di].ref.number + 1);
    var ws := Ledger(s.winners, users, |s.past|, |users|);
    assert CloseFinal(s, di, target, tks).winners == ws;
  }

  /** Completing the event keeps the invariant. */
  lemma CloseFinalValid(s: Store, di: nat, target: nat, tks: seq<Ticket>)
    requires s.current.Some? && di < |s.days| && OnlyDaysDiffer(s.tickets, tks)
    requires Valid(s)
    ensures Valid(CloseFinal(s, di, target, tks))
  {
    var r := CloseFinal(s, di, target, tks);
    RoomListsGrow(s, r);
    ValidFrame(s, r);
  }

  /** Completing the event never lowers its status. */
  lemma CloseFinalRaises(s: Store, di: nat, target: nat, tks: seq<Ticket>)
    requires s.current.Some? && di < |s.days| && OnlyDaysDiffer(s.tickets, tks)
    requires s.current.value.status <= 2
    ensures StatusRaised(s, CloseFinal(s, di, target, tks))
  {
    var r := CloseFinal(s, di, target, tks);
    assert r.past == s.past && r.past[..|s.past|] == s.past;
  }

  /** The tickets after the final selection with target `target` over every
      table of day `d`, last table first: the pass of `FinalPass`. */
  function FinalSelected(s: Store, d: DayRef, target: nat, limit: nat -> nat, draw: (nat, nat) -> nat): (tks: seq<Ticket>)
    ensures OnlyDaysDiffer(s.tickets, tks)
    ensures forall t :: 0 <= t < |tks| ==> tks[t].day == s.tickets[t].day || tks[t].day == d.number + 1
    ensures var tabs := FinalTables(s.tables, d);
            forall t :: 0 <= t < |tks| && Unseated(t, tabs, |tabs|) ==> tks[t] == s.tickets[t]
  {
    var tabs := FinalTables(s.tables, d);
    FinalPass(s.tickets, tabs, |tabs| - 1, 0, target, d.number + 1, limit, draw).0
  }

  /** The final room once the last day is found at index `di`: the final
      selection over the day's tables, then the closing writes. */
  function CloseLastDay(s: Store, di: nat, target: nat, limit: nat -> nat, draw: (nat, nat) -> nat): (r: Store)
    requires s.current.Some? && di < |s.days|
    ensures r.tickets == FinalSelected(s, s.days[di].ref, target, limit, draw)
    ensures r == CloseFinal(s, di, target, r.tickets)
    ensures Valid(s) ==> Valid(r)
    ensures s.current.value.status <= 2 ==> StatusRaised(s, r)
  {
    var picked := FinalSelected(s, s.days[di].ref, target, limit, draw);
    assert Valid(s) ==> Valid(CloseFinal(s, di, target, picked)) by {
      if Valid(s) {
        CloseFinalValid(s, di, target, picked);
      }
    }
    assert s.current.value.status <= 2 ==> StatusRaised(s, CloseFinal(s, di, target, picked)) by {
      if s.current.value.status <= 2 {
        CloseFinalRaises(s, di, target, picked);
      }
    }
    CloseFinal(s, di, target, picked)
  }

  /** `finalRoom`: on the event's last day, runs the final selection with
      target `target` over every table of that day, marks the day's rooms
      drawn, resets the day's status and records the target as its winner
      count, credits every ticket now past the last day in the winner
      ledger, and completes the event. */
  function FinalRoom(s: Store, target: nat, limit: nat -> nat, draw: (nat, nat) -> nat): (r: (Store, Reply))
    ensures s.current.None? ==> r == (s, Crashed(NoEvent))
    ensures s.current.Some? && LastDay(s.days, |s.past|).None? ==> r == (s, Crashed(NoDay))
    ensures r.1 == Ok <==> s.current.Some? && LastDay(s.days, |s.past|).Some?
    ensures r.1 == Ok ==>
              var di := LastDay(s.days, |s.past|).value;
              var d := s.days[di].ref;
              var tabs := FinalTables(s.tables, d);
              var tks := r.0.tickets;
              && OnlyDaysDiffer(s.tickets, tks)
              && (forall t :: 0 <= t < |tks| ==> tks[t].day == s.tickets[t].day || tks[t].day == d.number + 1)
              && (forall t :: 0 <= t < |tks| && Unseated(t, tabs, |tabs|) ==> tks[t] == s.tickets[t])
              && tks == FinalSelected(s, d, target, limit, draw)
              && r.0 == CloseFinal(s, di, target, tks)
    ensures Valid(s) ==> Valid(r.0)
    ensures s.current.Some? && s.current.value.status <= 2 ==> StatusRaised(s, r.0)
  {
    if s.current.None? then (s, Crashed(NoEvent))
    else
      var last := LastDay(s.days, |s.past|);
      if last.None? then (s, Crashed(NoDay))
      else
        (CloseLastDay(s, last.value, target, limit, draw), Ok)
  }
}

=== FILE: elimination.dfy ===
/** The elimination round of one room: for each table, every seat playing
    day `n` first moves to day `n + 1`; then seats are drawn at random and
    sent back to day `n` until three remain. Stored seat lists are never
    changed. Each random draw is a raw value whose remainder modulo the
    number of remaining seats is the index drawn. */
module Elimination {
  import opened Records

  /** The number of seats a table keeps in a round. */
  const Survivors: nat := 3

  /** How many seats a table of `len` seats sends back. */
  function Excess(len: nat): nat {
    if len > Survivors then len - Survivors else 0
  }

  /** Moves ticket `t` from day `n` to day `n + 1`; any other ticket stays. */
  function Promote(tks: seq<Ticket>, t: nat, n: nat): seq<Ticket> {
    if t < |tks| && tks[t].day == n then SetDay(tks, t, n + 1) else tks
  }

  /** The first loop of a table's draw, last seat first. */
  function Advance(tks: seq<Ticket>, seats: seq<nat>, n: nat): (r: seq<Ticket>)
    ensures |r| == |tks|
    ensures forall t :: 0 <= t < |tks| ==>
              r[t] == if t in seats && tks[t].day == n then tks[t].(day := n + 1) else tks[t]
    decreases |seats|
  {
    if |seats| == 0 then tks
    else
      var last := seats[|seats| - 1];
      assert forall t :: t in seats <==> t in seats[..|seats| - 1] || t == last by {
        assert seats == seats[..|seats| - 1] + [last];
      }
      Advance(Promote(tks, last, n), seats[..|seats| - 1], n)
  }

  /** Draws `count` seats out of `pool` one at a time, splicing each drawn
      seat out; draw number `m` takes index `pick(m) % |remaining|`.
      Returns the seats left and the seats drawn, in draw order. */
  function Cull(pool: seq<nat>, count: nat, pick: nat -> nat, m: nat): (r: (seq<nat>, seq<nat>))
    requires count <= |pool|
    ensures |r.1| == count && |r.0| == |pool| - count
    ensures multiset(r.0) + multiset(r.1) == multiset(pool)
    decreases count
  {
    if count == 0 then (pool, [])
    else
      var x := pick(m) % |pool|;
      var remaining := pool[..x] + pool[x + 1..];
      var rest := Cull(remaining, count - 1, pick, m + 1);
      assert multiset(pool) == multiset(remaining) + multiset{pool[x]} by {
        assert pool == pool[..x] + [pool[x]] + pool[x + 1..];
      }
      assert multiset([pool[x]] + rest.1) == multiset{pool[x]} + multiset(rest.1);
      (rest.0, [pool[x]] + rest.1)
  }

  /** The seats a table's draw sends back to day `n`. */
  function Losers(seats: seq<nat>, pick: nat -> nat): (r: seq<nat>)
    ensures |r| == Excess(|seats|)
    ensures multiset(r) <= multiset(seats)
  {
    Cull(seats, Excess(|seats|), pick, 0).1
  }

  /** The parts of a split of distinct seats are disjoint, cover the seats,
      and are themselves free of repeats. */
  lemma SplitParts(seats: seq<nat>, kept: seq<nat>, losers: seq<nat>)
    requires Distinct(seats)
    requires multiset(kept) + multiset(losers) == multiset(seats)
    ensures forall t :: t in seats <==> t in kept || t in losers
    ensures forall t :: t in seats ==> !(t in kept && t in losers)
    ensures forall x :: multiset(kept)[x] <= 1 && multiset(losers)[x] <= 1
  {
    forall t ensures t in seats <==> t in kept || t in losers {
      assert multiset(seats)[t] == multiset(kept)[t] + multiset(losers)[t];
    }
    forall t | t in seats ensures !(t in kept && t in losers) {
      assert multiset(seats)[t] == 1;
    }
    forall x ensures multiset(kept)[x] <= 1 && multiset(losers)[x] <= 1 {
      if x in seats { assert multiset(seats)[x] == 1; } else { assert multiset(seats)[x] == 0; }
    }
  }

  /** Every seat drawn comes from the pool. */
  lemma DrawnFromPool(pool: seq<nat>, count: nat, pick: nat -> nat, m: nat)
    requires count <= |pool|
    ensures forall t :: t in Cull(pool, count, pick, m).1 ==> t in pool
  {
    var drawn := Cull(pool, count, pick, m).1;
    forall t | t in drawn ensures t in pool {
      assert multiset(drawn)[t] <= multiset(pool)[t];
    }
  }

  lemma LosersSeated(seats: seq<nat>, pick: nat -> nat)
    ensures forall t :: t in Losers(seats, pick) ==> t in seats
  {
    DrawnFromPool(seats, Excess(|seats|), pick, 0);
  }

  /** One table's draw in round `n`. */
  function DrawTable(tks: seq<Ticket>, seats: seq<nat>, n: nat, pick: nat -> nat): (r: seq<Ticket>)
    ensures OnlyDaysDiffer(tks, r)
    ensures forall t :: 0 <= t < |tks| ==>
              r[t].day == if t in Losers(seats, pick) then n
                          else if t in seats && tks[t].day == n then n + 1
                          else tks[t].day
  {
    SetDays(Advance(tks, seats, n), Losers(seats, pick), n)
  }

  /** The elements of `s`, as a set. */
  function Elems(s: seq<nat>): (e: set<nat>)
    ensures forall x :: x in e <==> x in s
  {
    set x | x in s
  }

  lemma {:induction false} DistinctCard(s: seq<nat>)
    requires forall x :: multiset(s)[x] <= 1
    ensures |Elems(s)| == |s|
  {
    if |s| > 0 {
      var e := s[|s| - 1];
      var init := s[..|s| - 1];
      assert s == init + [e];
      assert multiset(s) == multiset(init) + multiset{e};
      forall x ensures multiset(init)[x] <= 1 {
        assert multiset(init)[x] <= multiset(s)[x];
      }
      DistinctCard(init);
      assert e !in init by {
        assert multiset(s)[e] == multiset(init)[e] + 1;
      }
      var before := Elems(init);
      assert Elems(s) == before + {e};
      assert e !in before;
      assert |before + {e}| == |before| + 1;
    } else {
      assert Elems(s) == {};
    }
  }

  /** The seats of a table that a draw leaves on day `d` are those of one
      part of the split, counted without repeats. */
  lemma CountPart(seats: seq<nat>, part: seq<nat>, r: seq<Ticket>, d: nat)
    requires IdsBelow(seats, |r|)
    requires forall x :: multiset(part)[x] <= 1
    requires forall t :: t in part ==> t in seats
    requires forall k :: 0 <= k < |seats| ==> (r[seats[k]].day == d <==> seats[k] in part)
    ensures |set t | t in seats && r[t].day == d| == |part|
  {
    forall t | t in seats ensures r[t].day == d <==> t in part {
      var k :| 0 <= k < |seats| && seats[k] == t;
    }
    assert (set t | t in seats && r[t].day == d) == Elems(part);
    DistinctCard(part);
  }

  /** On a table of distinct seats all playing day `n` or `n + 1`, a draw
      leaves exactly `min(L, 3)` of them on day `n + 1` and sends exactly
      `L - 3` (if positive) back to day `n`. */
  lemma DrawKeepsThree(tks: seq<Ticket>, seats: seq<nat>, n: nat, pick: nat -> nat)
    requires Distinct(seats) && IdsBelow(seats, |tks|)
    requires forall k :: 0 <= k < |seats| ==> tks[seats[k]].day == n || tks[seats[k]].day == n + 1
    ensures var r := DrawTable(tks, seats, n, pick);
            && |set t | t in seats && r[t].day == n + 1| == |seats| - Excess(|seats|)
            && |set t | t in seats && r[t].day == n| == Excess(|seats|)
  {
    var r := DrawTable(tks, seats, n, pick);
    var c := Cull(seats, Excess(|seats|), pick, 0);
    SplitParts(seats, c.0, c.1);
    assert forall k :: 0 <= k < |seats| ==> (r[seats[k]].day == n + 1 <==> seats[k] in c.0);
    CountPart(seats, c.0, r, n + 1);
    assert forall k :: 0 <= k < |seats| ==> (r[seats[k]].day == n <==> seats[k] in c.1);
    CountPart(seats, c.1, r, n);
  }

  /** Drawing a table again (after a first draw of the same round) gives the
      same tickets as if the first draw had never happened: the second draw
      reselects from scratch. */
  lemma RedrawReselects(tks: seq<Ticket>, seats: seq<nat>, n: nat, first: nat -> nat, second: nat -> nat)
    requires forall k :: 0 <= k < |seats| && seats[k] < |tks| ==> tks[seats[k]].day == n || tks[seats[k]].day == n + 1
    ensures DrawTable(DrawTable(tks, seats, n, first), seats, n, second) == DrawTable(tks, seats, n, second)
  {
    var once := DrawTable(tks, seats, n, first);
    var a := DrawTable(once, seats, n, second);
    var b := DrawTable(tks, seats, n, second);
    LosersSeated(seats, first);
    forall t | 0 <= t < |tks| ensures a[t].day == b[t].day {
      if t in seats {
        var k :| 0 <= k < |seats| && seats[k] == t;
      }
    }
    assert forall t :: 0 <= t < |tks| ==> a[t] == b[t];
  }

  /** The tables `tabs[..i]` hold no seat `t`. */
  predicate Unseated(t: nat, tabs: seq<seq<nat>>, i: nat)
    requires i <= |tabs|
  {
    forall x :: 0 <= x < i ==> t !in tabs[x]
  }

  /** The draw of a room: the tables `tabs[..i]` (as selected), last table
      first; the draws of the table at position `x` are `draw(x, _)`. */
  function DrawRoom(tks: seq<Ticket>, tabs: seq<seq<nat>>, n: nat, draw: (nat, nat) -> nat, i: nat): (r: seq<Ticket>)
    requires i <= |tabs|
    ensures OnlyDaysDiffer(tks, r)
    ensures forall t :: 0 <= t < |tks| && Unseated(t, tabs, i) ==> r[t] == tks[t]
    ensures forall t :: 0 <= t < |tks| ==> r[t].day == tks[t].day || r[t].day == n || r[t].day == n + 1
    ensures forall t :: 0 <= t < |tks| && (tks[t].day == n || tks[t].day == n + 1) ==>
              r[t].day == n || r[t].day == n + 1
    ensures i == |tabs| ==> RoundMoves(tks, r, tabs, n)
    decreases i
  {
    if i == 0 then tks
    else
      var pick := m => draw(i - 1, m);
      LosersSeated(tabs[i - 1], pick);
      var next := DrawTable(tks, tabs[i - 1], n, pick);
      assert forall t :: 0 <= t < |tks| && Unseated(t, tabs, i) ==> Unseated(t, tabs, i - 1) && next[t] == tks[t];
      assert forall t :: 0 <= t < |tks| ==> next[t].day == tks[t].day || next[t].day == n || next[t].day == n + 1;
      DrawRoom(next, tabs, n, draw, i - 1)
  }

  /** `b` is `a` after the tables `tabs` drew round `n`: a ticket seated at
      none of them keeps its day, and a ticket only ever moves between days
      `n` and `n + 1`. */
  predicate RoundMoves(a: seq<Ticket>, b: seq<Ticket>, tabs: seq<seq<nat>>, n: nat) {
    && |a| == |b|
    && (forall t :: 0 <= t < |a| && Unseated(t, tabs, |tabs|) ==> b[t].day == a[t].day)
    && (forall t :: 0 <= t < |a| ==> b[t].day == a[t].day || b[t].day == n || b[t].day == n + 1)
    && (forall t :: 0 <= t < |a| && (a[t].day == n || a[t].day == n + 1) ==> b[t].day == n || b[t].day == n + 1)
  }
}

=== FILE: event_admin.dfy ===
/** `create_Event`: the status part of starting a new event. */
module EventAdmin {
  import opened Records
  import opened Elimination
  import opened StoreView

  /** The status an archived event gets. */
  const Archived: nat := 3

  /** The number of tickets of event `ev`. */
  function EventEntries(tks: seq<Ticket>, ev: nat): (c: nat)
    ensures c == |set t | 0 <= t < |tks| && tks[t].event == ev|
  {
    var wanted := (t: Ticket) => t.event == ev;
    CountIsCard(tks, wanted);
    assert Elems(Query(tks, wanted)) == set t | 0 <= t < |tks| && tks[t].event == ev;
    Count(tks, wanted)
  }

  /** `create_Event`: the current event, if any, is archived with status 3,
      its ticket count as entry and `flagged` (the count of its tickets whose
      status flag is set) as winner; a new event opens with status 0 and no
      satellites; every main and satellite ticket is deleted. Tables, rooms,
      days and the winner ledger stay. */
  function CreateEvent(s: Store, flagged: nat): (s': Store)
    ensures s'.current == Some(Event(0, [], 0, 0))
    ensures s'.tickets == [] && s'.satTickets == []
    ensures s'.tables == s.tables && s'.rooms == s.rooms && s'.days == s.days && s'.winners == s.winners
    ensures s.current.None? ==> s'.past == s.past
    ensures s.current.Some? ==>
              s'.past == s.past + [s.current.value.(status := Archived, entry := EventEntries(s.tickets, |s.past|), winner := flagged)]
    // the new event is the next id: no archived event is ever reused
    ensures s.current.Some? ==> |s'.past| == |s.past| + 1
    ensures s.current.Some? && s.current.value.status <= Archived ==> StatusRaised(s, s')
    ensures Valid(s) ==> Valid(s')
  {
    var past := match s.current
      case None => s.past
      case Some(ev) => s.past + [ev.(status := Archived, entry := EventEntries(s.tickets, |s.past|), winner := flagged)];
    var s' := s.(past := past, current := Some(Event(0, [], 0, 0)), tickets := [], satTickets := []);
    assert s'.past[..|s.past|] == s.past;
    s'
  }

  /** A store whose days all belong to known events. The handlers create
      days only for the current event, but `Valid` does not include this and
      no lemma here proves that the handlers keep it; the lemma below takes
      it as a hypothesis. */
  predicate DaysKnown(s: Store) {
    forall e :: 0 <= e < |s.days| ==> s.days[e].ref.event <= |s.past|
  }

  /** After archiving, the new event has no day: every handler that looks a
      day up in the new event finds none until one is created. */
  lemma NewEventHasNoDays(s: Store, flagged: nat, n: nat)
    requires s.current.Some? && DaysKnown(s)
    ensures FindDay(CreateEvent(s, flagged), n).None?
  {
    var s' := CreateEvent(s, flagged);
    assert forall e :: 0 <= e < |s'.days| ==> s'.days[e].ref != CurrentDay(s', n);
  }

  /** After archiving, no table belongs to the new event, so no room draw
      of the new event sees a table of an old one through its day-scoped
      query. The satellite room guard counts tables of every event and so
      still sees old ones. */
  lemma NewEventHasNoTables(s: Store, flagged: nat)
    requires Valid(s)
    ensures var s' := CreateEvent(s, flagged);
            forall x :: 0 <= x < |s'.tables| ==> s'.tables[x].day.event < |s'.past|
  {
  }
}

=== FILE: final_selection.dfy ===
/** The final room: the selection loop that moves contenders of the last
    day's tables to the winners' day, and the winner ledger built from the
    result. */
module FinalSelection {
  import opened Records
  import opened Elimination

  /** How many seats a final table gives up: the loop runs its seat counter
      from `len - 1` down to just above the table's limit `lim`. */
  function FinalPicks(len: nat, lim: nat): (p: nat)
    ensures p <= len
    // a table keeps `lim + 1` seats, or all of them when it has no more
    ensures p > 0 ==> len - p == lim + 1
    ensures p == 0 <==> len <= lim + 1
  {
    if len > lim + 1 then len - 1 - lim else 0
  }

  /** On a final table of distinct seats none of which has already won,
      exactly `FinalPicks(L, lim)` of its seats move to the winners' day. */
  lemma FinalTableWins(tks: seq<Ticket>, seats: seq<nat>, lim: nat, won: nat, pick: nat -> nat)
    requires Distinct(seats) && IdsBelow(seats, |tks|)
    requires forall k :: 0 <= k < |seats| ==> tks[seats[k]].day != won
    ensures var p := FinalPicks(|seats|, lim);
            var r := SetDays(tks, Cull(seats, p, pick, 0).1, won);
            |set t | t in seats && r[t].day == won| == p
  {
    var p := FinalPicks(|seats|, lim);
    var c := Cull(seats, p, pick, 0);
    var r := SetDays(tks, c.1, won);
    SplitParts(seats, c.0, c.1);
    assert forall k :: 0 <= k < |seats| ==> (r[seats[k]].day == won <==> seats[k] in c.1);
    CountPart(seats, c.1, r, won);
  }

  /** The selection loop over the tables `tabs[..i + 1]`, last table first.
      `total` counts the winners so far and is only compared with `target`
      between tables; each pick also steps the table cursor down, so a
      table giving up `p` seats makes the loop skip the `p` tables below it.
      Table position `x` draws its limit as `limit(x) % 3` and its picks as
      `draw(x, _)`. Returns the tickets and the final count. */
  function FinalPass(tks: seq<Ticket>, tabs: seq<seq<nat>>, i: int, total: nat, target: nat, won: nat,
                     limit: nat -> nat, draw: (nat, nat) -> nat): (r: (seq<Ticket>, nat))
    requires i < |tabs|
    ensures OnlyDaysDiffer(tks, r.0)
    ensures total <= r.1
    ensures forall t :: 0 <= t < |tks| ==> r.0[t].day == tks[t].day || r.0[t].day == won
    ensures forall t :: 0 <= t < |tks| && (i < 0 || Unseated(t, tabs, i + 1)) ==> r.0[t] == tks[t]
    // the count overshoots the target by less than one table
    ensures (forall x :: 0 <= x < |tabs| ==> |tabs[x]| <= 10) && total <= target + 9 ==> r.1 <= target + 9
    decreases i + 1
  {
    if i < 0 || total > target then (tks, total)
    else
      var seats := tabs[i];
      var p := FinalPicks(|seats|, limit(i) % 3);
      var pick := m => draw(i, m);
      var chosen := Cull(seats, p, pick, 0).1;
      var next := SetDays(tks, chosen, won);
      DrawnFromPool(seats, p, pick, 0);
      assert forall t :: 0 <= t < |tks| && Unseated(t, tabs, i + 1) ==> next[t] == tks[t];
      FinalPass(next, tabs, i - p - 1, total + p, target, won, limit, draw)
  }

  /** With a single table the count is the table's pick count whatever the
      target, so a target of 0 still yields up to 9 winners. */
  lemma SingleTableIgnoresTarget(tks: seq<Ticket>, seats: seq<nat>, target: nat, won: nat,
                                 limit: nat -> nat, draw: (nat, nat) -> nat)
    ensures FinalPass(tks, [seats], 0, 0, target, won, limit, draw).1 == FinalPicks(|seats|, limit(0) % 3)
  {
  }

  /** A table that gives up seats makes the loop skip the table right below
      it: a ticket seated only there keeps its day. */
  lemma NextTableSkipped(tks: seq<Ticket>, tabs: seq<seq<nat>>, i: nat, total: nat, target: nat, won: nat,
                         limit: nat -> nat, draw: (nat, nat) -> nat, t: nat)
    requires 1 <= i < |tabs| && total <= target
    requires FinalPicks(|tabs[i]|, limit(i) % 3) > 0
    requires t < |tks| && t !in tabs[i] && Unseated(t, tabs, i - 1)
    ensures FinalPass(tks, tabs, i, total, target, won, limit, draw).0[t] == tks[t]
  {
    var p := FinalPicks(|tabs[i]|, limit(i) % 3);
    var chosen := Cull(tabs[i], p, m => draw(i, m), 0).1;
    var next := SetDays(tks, chosen, won);
    DrawnFromPool(tabs[i], p, m => draw(i, m), 0);
    assert next[t] == tks[t];
    var j := i - p - 1;
    if j >= 0 {
      assert Unseated(t, tabs, j + 1);
    }
  }

  /** The winning ordinals `u` holds across the ledger. */
  function Holdings(ws: seq<Winner>, u: nat): multiset<nat> {
    HeldBelow(ws, u, |ws|)
  }

  /** The winning ordinals `u` holds in the records `ws[..n]`. */
  function HeldBelow(ws: seq<Winner>, u: nat, n: nat): multiset<nat>
    requires n <= |ws|
  {
    if n == 0 then multiset{}
    else HeldBelow(ws, u, n - 1) + Held(ws[n - 1], u)
  }

  function Held(w: Winner, u: nat): multiset<nat> {
    if w.user == u then multiset(w.tickets) else multiset{}
  }

  /** The holdings in a prefix depend only on that prefix. */
  lemma {:induction false} HeldBelowPrefix(ws: seq<Winner>, more: seq<Winner>, u: nat, n: nat)
    requires n <= |ws|
    ensures HeldBelow(ws + more, u, n) == HeldBelow(ws, u, n)
  {
    if n > 0 {
      HeldBelowPrefix(ws, more, u, n - 1);
      assert (ws + more)[n - 1] == ws[n - 1];
    }
  }

  lemma HoldingsSnoc(ws: seq<Winner>, w: Winner, u: nat)
    ensures Holdings(ws + [w], u) == Holdings(ws, u) + Held(w, u)
  {
    HeldBelowPrefix(ws, [w], u, |ws|);
  }

  /** Appending `k` to record `x` adds `k` to the holdings of its user in
      every prefix that contains the record, and nothing else. */
  lemma {:induction false} AppendHeldBelow(ws: seq<Winner>, x: nat, k: nat, v: nat, n: nat)
    requires x < |ws| && n <= |ws|
    ensures HeldBelow(ws[x := ws[x].(tickets := ws[x].tickets + [k])], v, n) ==
            HeldBelow(ws, v, n) + (if x < n && v == ws[x].user then multiset{k} else multiset{})
  {
    if n > 0 {
      var w := ws[x].(tickets := ws[x].tickets + [k]);
      var ws' := ws[x := w];
      var extra := if v == ws[x].user then multiset{k} else multiset{};
      AppendHeldBelow(ws, x, k, v, n - 1);
      if n - 1 == x {
        assert ws'[n - 1] == w;
        assert Held(w, v) == Held(ws[x], v) + extra by {
          assert multiset(w.tickets) == multiset(ws[x].tickets) + multiset{k};
        }
        MultisetAssoc(HeldBelow(ws, v, n - 1), Held(ws[x], v), extra);
      } else if n - 1 > x {
        assert ws'[n - 1] == ws[n - 1];
        MultisetSwap(HeldBelow(ws, v, n - 1), extra, Held(ws[n - 1], v));
      } else {
        assert ws'[n - 1] == ws[n - 1];
      }
    }
  }

  lemma MultisetAssoc(a: multiset<nat>, b: multiset<nat>, c: multiset<nat>)
    ensures a + (b + c) == a + b + c
  {
  }

  lemma MultisetSwap(a: multiset<nat>, b: multiset<nat>, c: multiset<nat>)
    ensures a + b + c == a + c + b
  {
  }

  /** Appending `k` to record `x` adds `k` to the holdings of its user only. */
  lemma AppendHoldings(ws: seq<Winner>, x: nat, k: nat, v: nat)
    requires x < |ws|
    ensures Holdings(ws[x := ws[x].(tickets := ws[x].tickets + [k])], v) ==
            Holdings(ws, v) + (if v == ws[x].user then multiset{k} else multiset{})
  {
    AppendHeldBelow(ws, x, k, v, |ws|);
  }

  lemma NewHoldings(ws: seq<Winner>, w: Winner)
    requires |w.tickets| == 1
    ensures forall v :: Holdings(ws + [w], v) == Holdings(ws, v) + (if v == w.user then multiset{w.tickets[0]} else multiset{})
  {
    forall v ensures Holdings(ws + [w], v) == Holdings(ws, v) + (if v == w.user then multiset{w.tickets[0]} else multiset{}) {
      HoldingsSnoc(ws, w, v);
      assert w.tickets == [w.tickets[0]];
    }
  }

  /** The record `winnerItem` the final room loads: the first ledger record
      of the user, whatever its event. */
  function RecordOf(ws: seq<Winner>, u: nat): (r: Option<nat>)
    ensures r.Some? ==> r.value < |ws| && ws[r.value].user == u
    ensures r.None? ==> forall x :: 0 <= x < |ws| ==> ws[x].user != u
  {
    Find(ws, (w: Winner) => w.user == u)
  }

  /** Credits ordinal `k` to user `u`: appended to the user's record if one
      exists, else written into a new record of event `ev`. */
  function Credit(ws: seq<Winner>, u: nat, ev: nat, k: nat): (r: seq<Winner>)
    ensures forall v :: Holdings(r, v) == Holdings(ws, v) + (if v == u then multiset{k} else multiset{})
    ensures |ws| <= |r| <= |ws| + 1
    ensures forall x :: 0 <= x < |ws| ==> r[x].user == ws[x].user && r[x].event == ws[x].event
    ensures |r| == |ws| + 1 <==> RecordOf(ws, u).None?
    ensures |r| == |ws| + 1 ==> r[|ws|] == Winner(u, ev, [k])
  {
    match RecordOf(ws, u)
    case Some(x) =>
      var w := ws[x].(tickets := ws[x].tickets + [k]);
      forall v ensures Holdings(ws[x := w], v) == Holdings(ws, v) + (if v == u then multiset{k} else multiset{}) {
        AppendHoldings(ws, x, k, v);
      }
      ws[x := w]
    case None =>
      var w := Winner(u, ev, [k]);
      NewHoldings(ws, w);
      ws + [w]
  }

  /** The 1-based positions among `users[..i]` held by `u`: the ordinals
      the final room promises each winner. */
  function Ordinals(users: seq<nat>, u: nat, i: nat): multiset<nat>
    requires i <= |users|
  {
    if i == 0 then multiset{}
    else Ordinals(users, u, i - 1) + (if users[i - 1] == u then multiset{i} else multiset{})
  }

  /** The ledger loop over the winners' users `users[..i]`, last first:
      winner `k` (0-based) is credited ordinal `k + 1`. */
  function Ledger(ws: seq<Winner>, users: seq<nat>, ev: nat, i: nat): (r: seq<Winner>)
    requires i <= |users|
    ensures forall v :: Holdings(r, v) == Holdings(ws, v) + Ordinals(users, v, i)
    ensures |ws| <= |r|
    ensures forall x :: 0 <= x < |ws| ==> r[x].user == ws[x].user && r[x].event == ws[x].event
    ensures forall x :: |ws| <= x < |r| ==> r[x].event == ev && RecordOf(ws, r[x].user).None?
    decreases i
  {
    if i == 0 then ws
    else
      var u := users[i - 1];
      var once := Credit(ws, u, ev, i);
      var r := Ledger(once, users, ev, i - 1);
      assert forall x :: |ws| <= x < |r| ==> RecordOf(ws, r[x].user).None? by {
        forall x | |ws| <= x < |r| ensures RecordOf(ws, r[x].user).None? {
          if x >= |once| {
            assert RecordOf(once, r[x].user).None?;
            assert forall y :: 0 <= y < |ws| ==> once[y].user == ws[y].user;
          } else {
            assert x == |ws| && once[x].user == u;
          }
        }
      }
      r
  }

  /** A user who already has a record from an earlier event collects this
      event's ordinals in that record, and no record of this event is
      written for them. */
  lemma OldRecordAbsorbs(ws: seq<Winner>, users: seq<nat>, ev: nat, x: nat)
    requires x < |ws| && ws[x].event != ev && RecordOf(ws, ws[x].user).Some?
    ensures var r := Ledger(ws, users, ev, |users|);
            forall y :: 0 <= y < |r| && r[y].user == ws[x].user ==> y < |ws|
    ensures Holdings(Ledger(ws, users, ev, |users|), ws[x].user) == Holdings(ws, ws[x].user) + Ordinals(users, ws[x].user, |users|)
  {
  }
}

=== FILE: records.dfy ===
/** The persisted records the draw engine reads and writes, as immutable
    values, and the queries the handlers run over them.

    Every collection is a sequence in insertion order. A query without a
    sort is taken to return that order; the database does not promise it,
    so this is an assumption of the model. The id of a ticket, table, room
    or day record is its index in its collection. */
module Records {

  datatype Option<T> = None | Some(value: T)

  /** One entry of a ticket's history: where a packing pass seated it. */
  datatype Placement = Placement(room: nat, table: nat, seat: nat)

  /** A main-round ticket. `day` is the day it currently plays in;
      `satellite` is the sub-event it was promoted from, if any. */
  datatype Ticket = Ticket(user: nat, event: nat, day: nat, history: seq<Placement>, satellite: Option<nat>)

  /** A day of one event; tables and rooms point to their day this way. */
  datatype DayRef = DayRef(event: nat, number: nat)

  datatype Table = Table(id: nat, day: DayRef, seats: seq<nat>)

  datatype Room = Room(number: nat, day: DayRef, drawn: bool)

  /** `rooms` holds indices into the room collection. */
  datatype Day = Day(ref: DayRef, status: nat, entry: nat, winner: nat, rooms: seq<nat>)

  /** A satellite sub-event; `open` is its status flag. */
  datatype Satellite = Satellite(id: nat, winners: nat, open: bool)

  datatype Event = Event(status: nat, satellites: seq<Satellite>, entry: nat, winner: nat)

  datatype SatTicket = SatTicket(user: nat, satellite: nat, won: bool)

  /** A winner ledger record: the winning ordinals credited to a user. */
  datatype Winner = Winner(user: nat, event: nat, tickets: seq<nat>)

  /** The whole database. `past` holds archived events; the current event,
      if any, has id `|past|`. */
  datatype Store = Store(
    tickets: seq<Ticket>,
    satTickets: seq<SatTicket>,
    tables: seq<Table>,
    rooms: seq<Room>,
    days: seq<Day>,
    past: seq<Event>,
    current: Option<Event>,
    winners: seq<Winner>)

  /** Why a handler stopped: the source dereferences a missing record. */
  datatype Fault = NoEvent | NoDay | NoNextDay | NoRoom | NoSatellite | PoolExhausted

  /** The handlers' JSON replies ("OK", "drawed", "filled"), or a crash. */
  datatype Reply = Ok | Drawed | Filled | Crashed(fault: Fault)

  /** Schema defaults of a fresh ticket and a fresh day. */
  const FreshTicketDay: nat := 1
  const FreshDayStatus: nat := 0

  /** Each element of `s` occurs in it exactly once. */
  predicate Distinct(s: seq<nat>) {
    forall x | x in s :: multiset(s)[x] == 1
  }

  predicate IdsBelow(s: seq<nat>, n: nat) {
    forall k :: 0 <= k < |s| ==> s[k] < n
  }

  /** `ids` lists, in increasing order and once each, exactly the records
      below `n` that `wanted` accepts. */
  predicate Selected<T>(tks: seq<T>, wanted: T -> bool, n: nat, ids: seq<nat>)
    requires n <= |tks|
  {
    && IdsBelow(ids, n)
    && (forall k :: 0 <= k < |ids| ==> wanted(tks[ids[k]]))
    && (forall t :: 0 <= t < n && wanted(tks[t]) ==> t in ids)
    && (forall a, b :: 0 <= a < b < |ids| ==> ids[a] < ids[b])
    && Distinct(ids)
  }

  /** The ids `< n` of the records `wanted` accepts, in collection order:
      the result of a `find` over a collection. */
  function Select<T>(tks: seq<T>, wanted: T -> bool, n: nat): (ids: seq<nat>)
    requires n <= |tks|
    ensures Selected(tks, wanted, n, ids)
  {
    if n == 0 then []
    else
      var prev := Select(tks, wanted, n - 1);
      if wanted(tks[n - 1]) then
        SelectWanted(tks, wanted, n, prev);
        prev + [n - 1]
      else
        SelectUnwanted(tks, wanted, n, prev);
        prev
  }

  /** A wanted record extends the selection by its id. */
  lemma SelectWanted<T>(tks: seq<T>, wanted: T -> bool, n: nat, prev: seq<nat>)
    requires 0 < n <= |tks| && Selected(tks, wanted, n - 1, prev) && wanted(tks[n - 1])
    ensures Selected(tks, wanted, n, prev + [n - 1])
  {
    var last: nat := n - 1;
    SelectSnoc(prev, last);
    var ids := prev + [last];
    forall k | 0 <= k < |ids| ensures wanted(tks[ids[k]]) {
      if k < |prev| { assert ids[k] == prev[k]; }
    }
    forall t | 0 <= t < n && wanted(tks[t]) ensures t in ids {
      if t < last { assert t in prev; }
    }
  }

  /** An unwanted record leaves the selection as it was. */
  lemma SelectUnwanted<T>(tks: seq<T>, wanted: T -> bool, n: nat, prev: seq<nat>)
    requires 0 < n <= |tks| && Selected(tks, wanted, n - 1, prev) && !wanted(tks[n - 1])
    ensures Selected(tks, wanted, n, prev)
  {
    forall t | 0 <= t < n && wanted(tks[t]) ensures t in prev {
      assert t != n - 1;
    }
  }

  /** Two collections whose records the filters judge alike give the same
      query result. */
  lemma {:induction false} SelectAgrees<T, U>(a: seq<T>, wa: T -> bool, b: seq<U>, wb: U -> bool, n: nat)
    requires n <= |a| && |a| == |b|
    requires forall t :: 0 <= t < |a| ==> wa(a[t]) == wb(b[t])
    ensures Select(a, wa, n) == Select(b, wb, n)
  {
    if n > 0 {
      SelectAgrees(a, wa, b, wb, n - 1);
      assert wa(a[n - 1]) == wb(b[n - 1]);
    }
  }

  lemma QueryAgrees<T, U>(a: seq<T>, wa: T -> bool, b: seq<U>, wb: U -> bool)
    requires |a| == |b|
    requires forall t :: 0 <= t < |a| ==> wa(a[t]) == wb(b[t])
    ensures Query(a, wa) == Query(b, wb)
  {
    SelectAgrees(a, wa, b, wb, |a|);
  }

  /** Appending an id above every id of an increasing, repeat-free list
      keeps it so. */
  lemma SelectSnoc(s: seq<nat>, x: nat)
    requires IdsBelow(s, x) && Distinct(s)
    requires forall a, b :: 0 <= a < b < |s| ==> s[a] < s[b]
    ensures IdsBelow(s + [x], x + 1) && Distinct(s + [x])
    ensures forall a, b :: 0 <= a < b < |s + [x]| ==> (s + [x])[a] < (s + [x])[b]
    ensures forall t :: t in s + [x] <==> t in s || t == x
    ensures forall k :: 0 <= k < |s| ==> (s + [x])[k] == s[k]
    ensures (s + [x])[|s|] == x
  {
    assert x !in s;
    DistinctSnoc(s, x);
  }

  lemma DistinctSnoc(s: seq<nat>, x: nat)
    requires Distinct(s) && x !in s
    ensures Distinct(s + [x])
  {
    assert multiset(s + [x]) == multiset(s) + multiset{x};
    forall y | y in s + [x] ensures multiset(s + [x])[y] == 1 {
      if y == x { assert multiset(s)[y] == 0; } else { assert y in s; }
    }
  }

  /** The ids of all records `wanted` accepts, in collection order. */
  function Query<T>(tks: seq<T>, wanted: T -> bool): (ids: seq<nat>)
    ensures IdsBelow(ids, |tks|) && Distinct(ids)
    ensures forall t :: 0 <= t < |tks| ==> (t in ids <==> wanted(tks[t]))
    ensures forall a, b :: 0 <= a < b < |ids| ==> ids[a] < ids[b]
  {
    Select(tks, wanted, |tks|)
  }

  /** What a `count()` over a collection returns. */
  function Count<T>(tks: seq<T>, wanted: T -> bool): nat {
    |Query(tks, wanted)|
  }

  /** The index of the first element `p` accepts: a `findOne`. */
  function Find<T>(s: seq<T>, p: T -> bool, from: nat := 0): (r: Option<nat>)
    requires from <= |s|
    ensures r.Some? ==> from <= r.value < |s| && p(s[r.value])
    ensures r.Some? ==> forall k :: from <= k < r.value ==> !p(s[k])
    ensures r.None? ==> forall k :: from <= k < |s| ==> !p(s[k])
    decreases |s| - from
  {
    if from == |s| then None
    else if p(s[from]) then Some(from)
    else Find(s, p, from + 1)
  }

  /** The reference of day `number` of the current event. */
  function CurrentDay(s: Store, number: nat): DayRef {
    DayRef(|s.past|, number)
  }

  /** `Day.findOne({event_id, daynumber})` for the current event. */
  function FindDay(s: Store, number: nat): (r: Option<nat>)
    ensures r.Some? ==> r.value < |s.days| && s.days[r.value].ref == CurrentDay(s, number)
    ensures r.Some? ==> forall k :: 0 <= k < r.value ==> s.days[k].ref != CurrentDay(s, number)
    ensures r.None? ==> forall k :: 0 <= k < |s.days| ==> s.days[k].ref != CurrentDay(s, number)
  {
    Find(s.days, (d: Day) => d.ref == CurrentDay(s, number))
  }

  /** `Room.findOne({roomnumber, day})`. */
  function FindRoom(rooms: seq<Room>, number: nat, day: DayRef): (r: Option<nat>)
    ensures r.Some? ==> r.value < |rooms| && rooms[r.value].number == number && rooms[r.value].day == day
    ensures r.Some? ==> forall k :: 0 <= k < r.value ==> !(rooms[k].number == number && rooms[k].day == day)
    ensures r.None? ==> forall k :: 0 <= k < |rooms| ==> !(rooms[k].number == number && rooms[k].day == day)
  {
    Find(rooms, (m: Room) => m.number == number && m.day == day)
  }

  /** The day lookup depends only on the event and the days' references. */
  lemma FindDaySameRefs(s: Store, s': Store, number: nat)
    requires |s'.past| == |s.past| && |s'.days| == |s.days|
    requires forall e :: 0 <= e < |s.days| ==> s'.days[e].ref == s.days[e].ref
    ensures FindDay(s', number) == FindDay(s, number)
  {
    var a := FindDay(s, number);
    var b := FindDay(s', number);
    if a.Some? {
      assert b.Some? && b.value <= a.value;
    }
  }

  /** Appending a day of another number leaves the lookup unchanged; a day
      appended when none matched is the one found. */
  lemma FindDayAppended(s: Store, s': Store, number: nat, d: Day)
    requires |s'.past| == |s.past| && s'.days == s.days + [d]
    ensures d.ref != CurrentDay(s, number) ==> FindDay(s', number) == FindDay(s, number)
    ensures FindDay(s, number).None? && d.ref == CurrentDay(s, number) ==> FindDay(s', number) == Some(|s.days|)
  {
    var a := FindDay(s, number);
    var b := FindDay(s', number);
    assert forall e :: 0 <= e < |s.days| ==> s'.days[e] == s.days[e];
    assert CurrentDay(s', number) == CurrentDay(s, number);
    if a.Some? {
      assert b.Some? && b.value <= a.value;
    } else if d.ref == CurrentDay(s, number) {
      assert s'.days[|s.days|] == d;
      assert b.Some?;
    }
  }

  /** Sets the day of ticket `t`; an id with no ticket behind it is left
      alone, as an update of a missing document is. */
  function SetDay(tks: seq<Ticket>, t: nat, d: nat): (r: seq<Ticket>)
    ensures |r| == |tks|
    ensures forall u :: 0 <= u < |tks| ==> r[u] == if u == t then tks[u].(day := d) else tks[u]
  {
    if t < |tks| then tks[t := tks[t].(day := d)] else tks
  }

  /** Sets the day of every ticket in `ids`. */
  function SetDays(tks: seq<Ticket>, ids: seq<nat>, d: nat): (r: seq<Ticket>)
    ensures |r| == |tks|
    ensures forall u :: 0 <= u < |tks| ==> r[u] == if u in ids then tks[u].(day := d) else tks[u]
    decreases |ids|
  {
    if |ids| == 0 then tks
    else SetDays(SetDay(tks, ids[0], d), ids[1..], d)
  }

  /** The two ticket sequences differ at most in the `day` fields. */
  predicate OnlyDaysDiffer(a: seq<Ticket>, b: seq<Ticket>) {
    |a| == |b| && forall t :: 0 <= t < |a| ==> b[t] == a[t].(day := b[t].day)
  }

  /** The two ticket sequences differ at most in the histories. */
  predicate OnlyHistoriesDiffer(a: seq<Ticket>, b: seq<Ticket>) {
    |a| == |b| && forall t :: 0 <= t < |a| ==> b[t] == a[t].(history := b[t].history)
  }
}

=== FILE: satellite_handler.dfy ===
/** `assignSatelliteTable`: the promotion of a satellite's winners into the
    main round and the packing of the satellite's main tickets into a room
    of day 1. */
module SatelliteHandler {
  import opened Records
  import opened TableIds
  import opened SeatPacker
  import opened Elimination
  import opened StoreView

  /** The satellite `sid` of event `ev`: the first with that id. */
  function SatelliteOf(ev: Event, sid: nat): (x: Option<nat>)
    ensures x.Some? ==> x.value < |ev.satellites| && ev.satellites[x.value].id == sid
    ensures x.None? ==> forall k :: 0 <= k < |ev.satellites| ==> ev.satellites[k].id != sid
  {
    Find(ev.satellites, (a: Satellite) => a.id == sid)
  }

  /** The first room on the list `listed` numbered `r`: the populated room
      list filtered by number (an id with no room record drops out, as
      populating drops it). */
  function ListedRoom(rooms: seq<Room>, listed: seq<nat>, r: nat): (x: Option<nat>)
    ensures x.Some? ==> x.value < |rooms| && rooms[x.value].number == r && x.value in listed
    ensures x.None? ==> forall k :: 0 <= k < |listed| && listed[k] < |rooms| ==> rooms[listed[k]].number != r
  {
    match Find(listed, (id: nat) => id < |rooms| && rooms[id].number == r)
    case None => None
    case Some(k) => Some(listed[k])
  }

  /** Room `r` as listed on day 1 of the current event, if both exist. */
  function DayOneRoom(s: Store, r: nat): (x: Option<nat>)
    ensures x.Some? ==> FindDay(s, 1).Some? && x.value < |s.rooms| && s.rooms[x.value].number == r
    ensures x.Some? <==> FindDay(s, 1).Some? && ListedRoom(s.rooms, s.days[FindDay(s, 1).value].rooms, r).Some?
  {
    match FindDay(s, 1)
    case None => None
    case Some(di) => ListedRoom(s.rooms, s.days[di].rooms, r)
  }

  /** The number of tables, of any day of any event, whose id lies in room
      `r`'s draw range. */
  function RangeCount(ts: seq<Table>, r: nat): (c: nat)
    ensures c == |set x | 0 <= x < |ts| && InRoomRange(ts[x].id, r)|
  {
    var wanted := (tb: Table) => InRoomRange(tb.id, r);
    CountIsCard(ts, wanted);
    assert Elems(Query(ts, wanted)) == set x | 0 <= x < |ts| && InRoomRange(ts[x].id, r);
    Count(ts, wanted)
  }

  /** Room `r` counts as filled for satellite `x`: its id range already holds
      at least `2000 - winners` tables, compared as signed numbers, so a
      satellite with more than 2000 winners always finds it filled. */
  predicate Full(s: Store, x: nat, r: nat)
    requires s.current.Some? && x < |s.current.value.satellites|
  {
    RangeCount(s.tables, r) >= TablesPerRoom - s.current.value.satellites[x].winners
  }

  /** The room guard on day 1: the room `r` listed there is drawn, or it is
      not and the satellite finds it filled (a missing satellite crashes
      that comparison). */
  function GuardReply(s: Store, sid: nat, r: nat): (g: Option<Reply>)
    requires s.current.Some?
    ensures g == Some(Drawed) <==> DayOneRoom(s, r).Some? && s.rooms[DayOneRoom(s, r).value].drawn
    ensures g == Some(Crashed(NoSatellite)) <==>
              DayOneRoom(s, r).Some? && !s.rooms[DayOneRoom(s, r).value].drawn && SatelliteOf(s.current.value, sid).None?
    ensures g == Some(Filled) <==>
              && DayOneRoom(s, r).Some? && !s.rooms[DayOneRoom(s, r).value].drawn
              && SatelliteOf(s.current.value, sid).Some? && Full(s, SatelliteOf(s.current.value, sid).value, r)
    ensures g.None? || g == Some(Drawed) || g == Some(Filled) || g == Some(Crashed(NoSatellite))
  {
    match DayOneRoom(s, r)
    case None => None
    case Some(x) =>
      if s.rooms[x].drawn then Some(Drawed)
      else match SatelliteOf(s.current.value, sid)
        case None => Some(Crashed(NoSatellite))
        case Some(y) => if Full(s, y, r) then Some(Filled) else None
  }

  /** Day 1 as the handler holds it once the guard lets it through, and the
      store then: a missing day 1 becomes a new, unsaved day listing a new
      room `r`; a day 1 that does not list room `r` gets a new room appended
      to its list. */
  function Admit(s: Store, r: nat): (a: (Store, Day))
    ensures a.0 == s.(rooms := a.0.rooms) && a.1.ref == CurrentDay(s, 1)
    ensures |s.rooms| <= |a.0.rooms| <= |s.rooms| + 1 && a.0.rooms[..|s.rooms|] == s.rooms
    ensures |a.0.rooms| == |s.rooms| + 1 ==> a.0.rooms[|s.rooms|] == Room(r, CurrentDay(s, 1), false)
    ensures |a.0.rooms| == |s.rooms| + 1 <==> DayOneRoom(s, r).None?
    ensures FindDay(s, 1).None? ==> a.1 == Day(CurrentDay(s, 1), FreshDayStatus, 0, 0, [|s.rooms|])
    ensures FindDay(s, 1).Some? ==>
              var d := s.days[FindDay(s, 1).value];
              a.1 == d.(rooms := if DayOneRoom(s, r).None? then d.rooms + [|s.rooms|] else d.rooms)
    // once admitted, day 1 lists a room numbered r
    ensures ListedRoom(a.0.rooms, a.1.rooms, r).Some?
    ensures RoomListsOk(s) ==> forall k :: 0 <= k < |a.1.rooms| ==> a.1.rooms[k] < |a.0.rooms|
  {
    var room := Room(r, CurrentDay(s, 1), false);
    match FindDay(s, 1)
    case None =>
      var rooms := s.rooms + [room];
      assert rooms[..|s.rooms|] == s.rooms;
      var a := (s.(rooms := rooms), Day(CurrentDay(s, 1), FreshDayStatus, 0, 0, [|s.rooms|]));
      assert a.1.rooms[0] == |s.rooms|;
      a
    case Some(di) =>
      var d := s.days[di];
      if DayOneRoom(s, r).Some? then (s, d)
      else
        var rooms := s.rooms + [room];
        assert rooms[..|s.rooms|] == s.rooms;
        var listed := d.rooms + [|s.rooms|];
        assert listed[|d.rooms|] == |s.rooms| && rooms[|s.rooms|].number == r;
        (s.(rooms := rooms), d.(rooms := listed))
  }

  /** The satellite tickets of satellite `sid`, won or not: the pool the
      winners are drawn from. */
  function Pool(s: Store, sid: nat): (p: seq<nat>)
    ensures IdsBelow(p, |s.satTickets|) && Distinct(p)
    ensures forall x :: 0 <= x < |s.satTickets| ==> (x in p <==> s.satTickets[x].satellite == sid)
  {
    Query(s.satTickets, (a: SatTicket) => a.satellite == sid)
  }

  /** The satellite tickets `ids` marked won. */
  function MarkWon(sats: seq<SatTicket>, ids: seq<nat>): (r: seq<SatTicket>)
    ensures |r| == |sats|
    ensures forall x :: 0 <= x < |sats| ==>
              && r[x].won == (sats[x].won || x in ids)
              && r[x].user == sats[x].user && r[x].satellite == sats[x].satellite
  {
    seq(|sats|, x requires 0 <= x < |sats| => if x in ids then sats[x].(won := true) else sats[x])
  }

  /** `s'` holds the promotions of `picked`: distinct satellite tickets of
      `sid`, now marked won, with main ticket `|s.tickets| + k` (current
      event, day 1, satellite `sid`) belonging to the user of pick `k`;
      histories are left out, as packing extends them. */
  predicate Promoted(s: Store, s': Store, sid: nat, picked: seq<nat>) {
    && Distinct(picked) && IdsBelow(picked, |s.satTickets|)
    && (forall k :: 0 <= k < |picked| ==> s.satTickets[picked[k]].satellite == sid)
    && |s'.satTickets| == |s.satTickets|
    && (forall x :: 0 <= x < |s.satTickets| ==>
          s'.satTickets[x] == if x in picked then s.satTickets[x].(won := true) else s.satTickets[x])
    && |s'.tickets| == |s.tickets| + |picked|
    && (forall k :: 0 <= k < |picked| ==>
          s'.tickets[|s.tickets| + k].(history := []) == Ticket(s.satTickets[picked[k]].user, |s.past|, FreshTicketDay, [], Some(sid)))
  }

  /** Packing after the promotions keeps them. */
  lemma HistoriesKeepPromoted(s: Store, s2: Store, s3: Store, sid: nat, picked: seq<nat>)
    requires Promoted(s, s2, sid, picked)
    requires s3.satTickets == s2.satTickets && OnlyHistoriesDiffer(s2.tickets, s3.tickets)
    ensures Promoted(s, s3, sid, picked)
  {
    assert forall y :: 0 <= y < |s2.tickets| ==> s3.tickets[y].(history := []) == s2.tickets[y].(history := []);
  }

  /** Draws out of a pool without repeats are themselves free of repeats. */
  lemma CullDistinct(pool: seq<nat>, count: nat, pick: nat -> nat)
    requires count <= |pool| && Distinct(pool)
    ensures var picked := Cull(pool, count, pick, 0).1;
            Distinct(picked) && forall k :: 0 <= k < |picked| ==> picked[k] in pool
  {
    var c := Cull(pool, count, pick, 0);
    SplitParts(pool, c.0, c.1);
    forall x | x in c.1 ensures multiset(c.1)[x] == 1 {
    }
  }

  /** The writes of the winners loop for the picks `picked`: each marked
      won, and one main ticket per pick appended in pick order. */
  function Promotions(s: Store, sid: nat, picked: seq<nat>): (s': Store)
    requires Distinct(picked) && IdsBelow(picked, |s.satTickets|)
    requires forall k :: 0 <= k < |picked| ==> s.satTickets[picked[k]].satellite == sid
    ensures Promoted(s, s', sid, picked)
    ensures s' == s.(tickets := s'.tickets, satTickets := s'.satTickets)
    ensures s'.tickets[..|s.tickets|] == s.tickets
  {
    var made := seq(|picked|, k requires 0 <= k < |picked| => Ticket(s.satTickets[picked[k]].user, |s.past|, FreshTicketDay, [], Some(sid)));
    var tks := s.tickets + made;
    assert tks[..|s.tickets|] == s.tickets;
    s.(tickets := tks, satTickets := MarkWon(s.satTickets, picked))
  }

  /** The winners loop: draws `count` tickets out of the pool, splicing
      each out, so no satellite ticket is picked twice in one call. */
  function PromoteWinners(s: Store, sid: nat, count: nat, pick: nat -> nat): (r: (Store, seq<nat>))
    requires count <= |Pool(s, sid)|
    ensures |r.1| == count && Promoted(s, r.0, sid, r.1)
    ensures r.0 == s.(tickets := r.0.tickets, satTickets := r.0.satTickets)
    ensures r.0.tickets[..|s.tickets|] == s.tickets
  {
    var pool := Pool(s, sid);
    var picked := Cull(pool, count, pick, 0).1;
    CullDistinct(pool, count, pick);
    (Promotions(s, sid, picked), picked)
  }

  /** The main tickets of satellite `sid`. */
  predicate OfSatellite(sid: nat, t: Ticket) {
    t.satellite == Some(sid)
  }

  /** The packing pass of a satellite: every main ticket of satellite `sid`
      is packed into new tables of day `d` from id `2000 r` on, skipping
      every id a table of any day already uses. */
  method SatellitePack(s: Store, sid: nat, r: nat, d: DayRef) returns (s': Store, made: seq<Table>)
    ensures s' == s.(tickets := s'.tickets, tables := s'.tables)
    ensures OnlyHistoriesDiffer(s.tickets, s'.tickets)
    ensures s'.tables == s.tables + made
    ensures multiset(Seats(made)) == multiset(Query(s.tickets, t => OfSatellite(sid, t)))
    ensures forall x :: 0 <= x < |made| ==> WellPacked(s.tickets, made[x], d)
    ensures forall x :: 0 <= x < |made| ==> r * TablesPerRoom <= made[x].id && made[x].id !in AllIds(s.tables)
    ensures forall x, y :: 0 <= x < y < |made| ==> made[x].id < made[y].id
  {
    var queue := Query(s.tickets, t => OfSatellite(sid, t));
    var tks;
    tks, made := Pack(s.tickets, queue, r * TablesPerRoom, AllIds(s.tables), d);
    PackedHistoriesOnly(s.tickets, queue, made, tks);
    s' := s.(tickets := tks, tables := s.tables + made);
  }

  /** The last writes: day 1 saved with the number of main tickets as its
      entry (appended when it was new), and satellite `x` closed. */
  function Finish(s: Store, day: Day, x: nat): (s': Store)
    requires s.current.Some? && x < |s.current.value.satellites| && day.ref == CurrentDay(s, 1)
    ensures s' == s.(days := s'.days, current := s'.current)
    ensures var ev := s.current.value;
            s'.current == Some(ev.(satellites := ev.satellites[x := ev.satellites[x].(open := false)]))
    ensures FindDay(s', 1).Some? && s'.days[FindDay(s', 1).value] == day.(entry := |s.tickets|)
    ensures FindDay(s, 1).None? ==> |s'.days| == |s.days| + 1 && s'.days[..|s.days|] == s.days
    ensures FindDay(s, 1).Some? ==> |s'.days| == |s.days| && forall e :: 0 <= e < |s.days| && e != FindDay(s, 1).value ==> s'.days[e] == s.days[e]
    ensures Valid(s) && (forall k :: 0 <= k < |day.rooms| ==> day.rooms[k] < |s.rooms|) ==> Valid(s')
  {
    var saved := day.(entry := |s.tickets|);
    var ev := s.current.value;
    var current := Some(ev.(satellites := ev.satellites[x := ev.satellites[x].(open := false)]));
    match FindDay(s, 1)
    case Some(di) =>
      var s' := s.(days := s.days[di := saved], current := current);
      FindDaySameRefs(s, s', 1);
      assert Valid(s) && (forall k :: 0 <= k < |day.rooms| ==> day.rooms[k] < |s.rooms|) ==> Valid(s') by {
        if Valid(s) && (forall k :: 0 <= k < |day.rooms| ==> day.rooms[k] < |s.rooms|) {
          ValidFrame(s, s');
        }
      }
      s'
    case None =>
      var s' := s.(days := s.days + [saved], current := current);
      FindDayAppended(s, s', 1, saved);
      assert Valid(s) && (forall k :: 0 <= k < |day.rooms| ==> day.rooms[k] < |s.rooms|) ==> Valid(s') by {
        if Valid(s) && (forall k :: 0 <= k < |day.rooms| ==> day.rooms[k] < |s.rooms|) {
          ValidFrame(s, s');
        }
      }
      s'
  }

  /** The ids in use on one day are in use. */
  lemma DayIdsUsed(ts: seq<Table>, d: DayRef)
    ensures DayIds(ts, d) <= AllIds(ts)
  {
  }

  /** Promotions depend on the tickets, satellite tickets and archive of the
      store they start from, not on its rooms. */
  lemma PromotedSameBase(s: Store, s1: Store, s': Store, sid: nat, picked: seq<nat>)
    requires s1.tickets == s.tickets && s1.satTickets == s.satTickets && s1.past == s.past
    requires Promoted(s1, s', sid, picked)
    ensures Promoted(s, s', sid, picked)
  {
  }

  /** Tickets rewritten in their histories only, seen through a prefix. */
  lemma HistoriesPrefix(a: seq<Ticket>, b: seq<Ticket>, c: seq<Ticket>)
    requires |a| <= |b| && b[..|a|] == a && OnlyHistoriesDiffer(b, c)
    ensures OnlyHistoriesDiffer(a, c[..|a|])
  {
    assert forall t :: 0 <= t < |a| ==> a[t] == b[t];
  }

  /** The tail of the handler once the winners are in: the satellite's
      main tickets packed from id `2000 r` on, day 1 saved with the ticket
      count as its entry, the satellite `x` closed. */
  method PackAndClose(s: Store, day: Day, sid: nat, r: nat, x: nat) returns (s': Store)
    requires s.current.Some? && x < |s.current.value.satellites| && day.ref == CurrentDay(s, 1)
    ensures s'.satTickets == s.satTickets && s'.rooms == s.rooms && s'.past == s.past
    ensures OnlyHistoriesDiffer(s.tickets, s'.tickets)
    ensures |s.tables| <= |s'.tables| && s'.tables[..|s.tables|] == s.tables
    ensures forall y :: |s.tables| <= y < |s'.tables| ==>
              s'.tables[y].day == CurrentDay(s, 1) && r * TablesPerRoom <= s'.tables[y].id && s'.tables[y].id !in AllIds(s.tables)
    ensures multiset(DaySeats(s'.tables, CurrentDay(s, 1))) ==
            multiset(DaySeats(s.tables, CurrentDay(s, 1))) + multiset(Query(s'.tickets, t => OfSatellite(sid, t)))
    ensures FindDay(s', 1).Some? && s'.days[FindDay(s', 1).value] == day.(entry := |s'.tickets|)
    ensures var ev := s.current.value;
            s'.current == Some(ev.(satellites := ev.satellites[x := ev.satellites[x].(open := false)]))
    ensures Valid(s) && (forall k :: 0 <= k < |day.rooms| ==> day.rooms[k] < |s.rooms|) ==> Valid(s')
  {
    var d := CurrentDay(s, 1);
    var s3, made := SatellitePack(s, sid, r, d);
    DaySeatsAppend(s.tables, made, d);
    QueryAgrees(s.tickets, t => OfSatellite(sid, t), s3.tickets, t => OfSatellite(sid, t));
    if Valid(s) {
      DayIdsUsed(s.tables, d);
      AppendTablesValid(s, made, d, s3);
    }
    assert s3.tables[..|s.tables|] == s.tables;
    s' := Finish(s3, day, x);
  }

  /** The winners loop and what follows, on the store the guard admitted,
      with day 1 held as `day`: `min(winners, |pool|)` promotions, then,
      when the pool sufficed, the packing pass and the closing writes. */
  method PromoteAndPack(s: Store, day: Day, sid: nat, r: nat, x: nat, pick: nat -> nat)
    returns (s': Store, reply: Reply, picked: seq<nat>)
    requires s.current.Some? && x < |s.current.value.satellites| && day.ref == CurrentDay(s, 1)
    ensures var w := s.current.value.satellites[x].winners;
            && (reply == Ok <==> w <= |Pool(s, sid)|)
            && (reply != Ok ==> reply == Crashed(PoolExhausted))
            && |picked| == (if w <= |Pool(s, sid)| then w else |Pool(s, sid)|)
            && Promoted(s, s', sid, picked)
            && s'.rooms == s.rooms && s'.past == s.past
    ensures reply != Ok ==> s'.current == s.current
    ensures reply == Ok ==>
              && OnlyHistoriesDiffer(s.tickets, s'.tickets[..|s.tickets|])
              && |s.tables| <= |s'.tables| && s'.tables[..|s.tables|] == s.tables
              && (forall y :: |s.tables| <= y < |s'.tables| ==>
                    s'.tables[y].day == CurrentDay(s, 1) && r * TablesPerRoom <= s'.tables[y].id && s'.tables[y].id !in AllIds(s.tables))
              && multiset(DaySeats(s'.tables, CurrentDay(s, 1))) ==
                 multiset(DaySeats(s.tables, CurrentDay(s, 1))) + multiset(Query(s'.tickets, t => OfSatellite(sid, t)))
              && FindDay(s', 1).Some? && s'.days[FindDay(s', 1).value] == day.(entry := |s'.tickets|)
              && var ev := s.current.value;
                 s'.current == Some(ev.(satellites := ev.satellites[x := ev.satellites[x].(open := false)]))
    ensures Valid(s) && (forall k :: 0 <= k < |day.rooms| ==> day.rooms[k] < |s.rooms|) ==> Valid(s')
  {
    var w := s.current.value.satellites[x].winners;
    var pool := Pool(s, sid);
    var promoted := PromoteWinners(s, sid, if w <= |pool| then w else |pool|, pick);
    var s2 := promoted.0;
    picked := promoted.1;
    if Valid(s) {
      ValidFrame(s, s2);
    }
    if w > |pool| {
      return s2, Crashed(PoolExhausted), picked;
    }
    s' := PackAndClose(s2, day, sid, r, x);
    HistoriesKeepPromoted(s, s2, s', sid, picked);
    HistoriesPrefix(s.tickets, s2.tickets, s'.tickets);
    reply := Ok;
  }

  /** `assignSatelliteTable` for satellite `sid` and room `r`; the `k`-th
      winner draw takes index `pick(k) % |pool|`. Returns the satellite
      tickets promoted, in draw order. */
  method AssignSatelliteTable(s: Store, sid: nat, r: nat, pick: nat -> nat) returns (s': Store, reply: Reply, picked: seq<nat>)
    ensures s.current.None? ==> s' == s && reply == Crashed(NoEvent) && picked == []
    // "drawed", "filled", or a crash on the missing satellite, before any write
    ensures s.current.Some? && GuardReply(s, sid, r).Some? ==> s' == s && reply == GuardReply(s, sid, r).value && picked == []
    ensures reply == Ok ==> s.current.Some? && GuardReply(s, sid, r).None?
    // past the guard, day 1 lists room r, a new room record when it did not
    ensures s.current.Some? && GuardReply(s, sid, r).None? ==>
              && |s.rooms| <= |s'.rooms| <= |s.rooms| + 1 && s'.rooms[..|s.rooms|] == s.rooms
              && (|s'.rooms| > |s.rooms| <==> DayOneRoom(s, r).None?)
    // an empty pool answers "OK" with nothing drawn, packed or saved
    ensures s.current.Some? && GuardReply(s, sid, r).None? && |Pool(s, sid)| == 0 ==>
              reply == Ok && picked == [] && s' == s.(rooms := s'.rooms)
    ensures s.current.Some? && GuardReply(s, sid, r).None? && |Pool(s, sid)| > 0 && SatelliteOf(s.current.value, sid).None? ==>
              reply == Crashed(NoSatellite) && picked == [] && s' == s.(rooms := s'.rooms)
    // more winners than satellite tickets: the pool runs dry after |pool| promotions
    ensures reply == Crashed(PoolExhausted) ==>
              && s.current.Some? && SatelliteOf(s.current.value, sid).Some?
              && |Pool(s, sid)| < s.current.value.satellites[SatelliteOf(s.current.value, sid).value].winners
              && |picked| == |Pool(s, sid)| && Promoted(s, s', sid, picked)
    ensures reply == Ok && |Pool(s, sid)| > 0 ==>
              && s.current.Some? && SatelliteOf(s.current.value, sid).Some?
              && var ev := s.current.value;
                 var x := SatelliteOf(ev, sid).value;
                 && |picked| == ev.satellites[x].winners <= |Pool(s, sid)|
                 && Promoted(s, s', sid, picked)
                 && OnlyHistoriesDiffer(s.tickets, s'.tickets[..|s.tickets|])
                 && |s.tables| <= |s'.tables| && s'.tables[..|s.tables|] == s.tables
                 && (forall y :: |s.tables| <= y < |s'.tables| ==>
                       s'.tables[y].day == CurrentDay(s, 1) && r * TablesPerRoom <= s'.tables[y].id && s'.tables[y].id !in AllIds(s.tables))
                 // every main ticket of the satellite, old or new, gets one more seat on day 1
                 && multiset(DaySeats(s'.tables, CurrentDay(s, 1))) ==
                    multiset(DaySeats(s.tables, CurrentDay(s, 1))) + multiset(Query(s'.tickets, t => OfSatellite(sid, t)))
                 && FindDay(s', 1).Some? && s'.days[FindDay(s', 1).value].entry == |s'.tickets|
                 && ListedRoom(s'.rooms, s'.days[FindDay(s', 1).value].rooms, r).Some?
                 && s'.current == Some(ev.(satellites := ev.satellites[x := ev.satellites[x].(open := false)]))
    ensures Valid(s) ==> Valid(s')
    ensures StatusRaised(s, s')
  {
    if s.current.None? {
      return s, Crashed(NoEvent), [];
    }
    var ev := s.current.value;
    var guard := GuardReply(s, sid, r);
    if guard.Some? {
      return s, guard.value, [];
    }
    var admitted := Admit(s, r);
    var s1, day := admitted.0, admitted.1;
    if Valid(s) {
      RoomListsGrow(s, s1);
      ValidFrame(s, s1);
    }
    var pool := Pool(s, sid);
    if |pool| == 0 {
      return s1, Ok, [];
    }
    var sat := SatelliteOf(ev, sid);
    if sat.None? {
      return s1, Crashed(NoSatellite), [];
    }
    assert Pool(s1, sid) == pool;
    s', reply, picked := PromoteAndPack(s1, day, sid, r, sat.value, pick);
    PromotedSameBase(s, s1, s', sid, picked);
  }
}

=== FILE: seat_packer.dfy ===
/** The seat packer: first-fit packing of a list of tickets into tables of
    at most 10 seats with at most 2 seats per user, walking table ids upward
    from a base id and skipping ids that are already taken.

    `generateTable` (base 0, ids taken in the target day) and the packing
    loop inside `assignSatelliteTable` (base `2000 r`, ids taken in any day)
    are both `Pack` with different arguments. */
module SeatPacker {
  import opened Records
  import opened TableIds

  const Capacity: nat := 10
  const UserCap: nat := 2

  /** How many of `seats` hold a ticket of user `u`. */
  function UsersAt(tks: seq<Ticket>, seats: seq<nat>, u: nat): nat
    requires IdsBelow(seats, |tks|)
  {
    if |seats| == 0 then 0
    else UsersAt(tks, seats[..|seats| - 1], u) + (if tks[seats[|seats| - 1]].user == u then 1 else 0)
  }

  /** No user holds more than two of `seats`. */
  ghost predicate WithinCap(tks: seq<Ticket>, seats: seq<nat>)
    requires IdsBelow(seats, |tks|)
  {
    forall u :: UsersAt(tks, seats, u) <= UserCap
  }

  /** A table a packing pass may save into `day`. */
  ghost predicate WellPacked(tks: seq<Ticket>, table: Table, day: DayRef) {
    && table.day == day
    && 1 <= |table.seats| <= Capacity
    && IdsBelow(table.seats, |tks|)
    && WithinCap(tks, table.seats)
  }

  /** All seats of `ts`, table after table. */
  function Seats(ts: seq<Table>): seq<nat> {
    if |ts| == 0 then [] else Seats(ts[..|ts| - 1]) + ts[|ts| - 1].seats
  }

  /** Ticket `t` after being seated at seat `seat` of table `id`. */
  function Seated(t: Ticket, id: nat, seat: nat): Ticket {
    t.(history := t.history + [PlacementOf(id, seat)])
  }

  lemma UsersAtSnoc(tks: seq<Ticket>, seats: seq<nat>, t: nat, u: nat)
    requires IdsBelow(seats, |tks|) && t < |tks|
    ensures UsersAt(tks, seats + [t], u) == UsersAt(tks, seats, u) + (if tks[t].user == u then 1 else 0)
  {
    assert (seats + [t])[..|seats|] == seats;
  }

  /** The cap only depends on who owns each ticket. */
  lemma UsersAtSameOwners(a: seq<Ticket>, b: seq<Ticket>, seats: seq<nat>, u: nat)
    requires IdsBelow(seats, |a|) && IdsBelow(seats, |b|)
    requires forall k :: 0 <= k < |seats| ==> a[seats[k]].user == b[seats[k]].user
    ensures UsersAt(a, seats, u) == UsersAt(b, seats, u)
  {
    if |seats| > 0 {
      UsersAtSameOwners(a, b, seats[..|seats| - 1], u);
    }
  }

  lemma WithinCapSameOwners(a: seq<Ticket>, b: seq<Ticket>, seats: seq<nat>)
    requires IdsBelow(seats, |a|) && IdsBelow(seats, |b|)
    requires forall k :: 0 <= k < |seats| ==> a[seats[k]].user == b[seats[k]].user
    requires WithinCap(a, seats)
    ensures WithinCap(b, seats)
  {
    forall u ensures UsersAt(b, seats, u) <= UserCap {
      UsersAtSameOwners(a, b, seats, u);
    }
  }

  lemma SeatsSnoc(ts: seq<Table>, t: Table)
    ensures Seats(ts + [t]) == Seats(ts) + t.seats
  {
    assert (ts + [t])[..|ts|] == ts;
  }

  /** Every element of `Seats(ts)` sits at some seat of some table. */
  lemma SeatOf(ts: seq<Table>, t: nat) returns (x: nat, k: nat)
    requires t in Seats(ts)
    ensures x < |ts| && k < |ts[x].seats| && ts[x].seats[k] == t
  {
    var init := ts[..|ts| - 1];
    if t in Seats(init) {
      x, k := SeatOf(init, t);
      assert ts[x] == init[x];
    } else {
      x := |ts| - 1;
      var ks :| 0 <= ks < |ts[x].seats| && ts[x].seats[ks] == t;
      k := ks;
    }
  }

  /** A packing pass changes the queued tickets' histories and nothing else. */
  lemma PackedHistoriesOnly(tks0: seq<Ticket>, queue: seq<nat>, made: seq<Table>, tks: seq<Ticket>)
    requires |tks| == |tks0| && SeatsBelow(made, |tks0|)
    requires multiset(Seats(made)) == multiset(queue)
    requires forall x, k :: 0 <= x < |made| && 0 <= k < |made[x].seats| ==>
               tks[made[x].seats[k]] == Seated(tks0[made[x].seats[k]], made[x].id, k)
    requires forall t :: 0 <= t < |tks0| && t !in queue ==> tks[t] == tks0[t]
    ensures OnlyHistoriesDiffer(tks0, tks)
  {
    forall t | 0 <= t < |tks0| ensures tks[t] == tks0[t].(history := tks[t].history) {
      if t in queue {
        assert multiset(queue)[t] > 0;
        assert t in Seats(made);
        var x, k := SeatOf(made, t);
      }
    }
  }

  lemma InSeats(ts: seq<Table>, x: nat, k: nat)
    requires x < |ts| && k < |ts[x].seats|
    ensures ts[x].seats[k] in Seats(ts)
  {
    if x < |ts| - 1 {
      InSeats(ts[..|ts| - 1], x, k);
    }
  }

  /** Every queued ticket is in exactly one of: a saved table, the open
      table, the working list. */
  ghost predicate Conserved(queue: seq<nat>, made: seq<Table>, temp: seq<nat>, maps: seq<nat>) {
    multiset(Seats(made) + temp + maps) == multiset(queue)
  }

  /** The saved tables are well packed and carry fresh, strictly increasing
      ids from `base` up to (excluding) `j`. */
  ghost predicate SavedOk(tks0: seq<Ticket>, base: nat, taken: set<nat>, day: DayRef, j: nat, made: seq<Table>) {
    && (forall x :: 0 <= x < |made| ==> WellPacked(tks0, made[x], day))
    && (forall x :: 0 <= x < |made| ==> base <= made[x].id < j && made[x].id !in taken)
    && (forall x, y :: 0 <= x < y < |made| ==> made[x].id < made[y].id)
  }

  /** Every seat of `made` holds a ticket id below `n`. */
  ghost predicate SeatsBelow(made: seq<Table>, n: nat) {
    forall x, k :: 0 <= x < |made| && 0 <= k < |made[x].seats| ==> made[x].seats[k] < n
  }

  /** Every seated ticket is its snapshot plus one history entry naming its
      table and seat. */
  ghost predicate Recorded(tks0: seq<Ticket>, tks: seq<Ticket>, made: seq<Table>, temp: seq<nat>, j: nat)
    requires |tks| == |tks0| && IdsBelow(temp, |tks0|) && SeatsBelow(made, |tks0|)
  {
    && (forall x, k :: 0 <= x < |made| && 0 <= k < |made[x].seats| ==>
          tks[made[x].seats[k]] == Seated(tks0[made[x].seats[k]], made[x].id, k))
    && (forall k :: 0 <= k < |temp| ==> tks[temp[k]] == Seated(tks0[temp[k]], j, k))
  }

  /** Tickets still waiting, and tickets never queued, are unchanged. */
  ghost predicate Untouched(tks0: seq<Ticket>, tks: seq<Ticket>, queue: seq<nat>, maps: seq<nat>)
    requires |tks| == |tks0|
  {
    forall t :: 0 <= t < |tks0| && (t in maps || t !in queue) ==> tks[t] == tks0[t]
  }

  /** The loop state of a packing pass over `queue`, started from tickets
      `tks0`, with open table `temp` at id `j` and working list `maps`. */
  ghost predicate Packing(tks0: seq<Ticket>, queue: seq<nat>, base: nat, taken: set<nat>, day: DayRef,
                          tks: seq<Ticket>, maps: seq<nat>, temp: seq<nat>, j: nat, made: seq<Table>)
  {
    && |tks| == |tks0|
    && Conserved(queue, made, temp, maps)
    && IdsBelow(maps, |tks0|) && IdsBelow(temp, |tks0|)
    && |temp| <= Capacity && WithinCap(tks0, temp)
    && base <= j
    && (|temp| > 0 ==> j !in taken)
    && SavedOk(tks0, base, taken, day, j, made)
    && SeatsBelow(made, |tks0|)
    && Recorded(tks0, tks, made, temp, j)
    && Untouched(tks0, tks, queue, maps)
  }

  /** Moving `maps[i]` to the end of the open table conserves the tickets,
      and `maps[i]` was nowhere else. */
  lemma SpliceConserves(queue: seq<nat>, made: seq<Table>, temp: seq<nat>, maps: seq<nat>, i: nat)
    requires Distinct(queue) && Conserved(queue, made, temp, maps) && i < |maps|
    ensures Conserved(queue, made, temp + [maps[i]], maps[..i] + maps[i + 1..])
    ensures maps[i] !in Seats(made) && maps[i] !in temp && maps[i] !in maps[..i] + maps[i + 1..]
    ensures maps[i] in queue
  {
    var t := maps[i];
    var rest := maps[..i] + maps[i + 1..];
    var a := Seats(made);
    assert maps == maps[..i] + [t] + maps[i + 1..];
    assert multiset(maps) == multiset(rest) + multiset{t};
    assert a + (temp + [t]) + rest == a + temp + [t] + rest;
    assert multiset(a + temp + maps) == multiset(a) + multiset(temp) + multiset(maps);
    assert multiset(a + (temp + [t]) + rest) == multiset(a) + multiset(temp) + multiset{t} + multiset(rest);
    assert multiset(queue)[t] == 1;
    assert multiset(a + temp + maps)[t] == multiset(a)[t] + multiset(temp)[t] + multiset(rest)[t] + 1;
  }

  lemma PlaceRecorded(tks0: seq<Ticket>, tks: seq<Ticket>, made: seq<Table>, temp: seq<nat>, j: nat, t: nat)
    requires |tks| == |tks0| && IdsBelow(temp, |tks0|) && t < |tks0| && SeatsBelow(made, |tks0|)
    requires Recorded(tks0, tks, made, temp, j)
    requires t !in Seats(made) && t !in temp
    ensures Recorded(tks0, tks[t := Seated(tks0[t], j, |temp|)], made, temp + [t], j)
  {
    var tks' := tks[t := Seated(tks0[t], j, |temp|)];
    forall x, k | 0 <= x < |made| && 0 <= k < |made[x].seats|
      ensures tks'[made[x].seats[k]] == Seated(tks0[made[x].seats[k]], made[x].id, k)
    {
      InSeats(made, x, k);
    }
  }

  lemma PlaceCapped(tks0: seq<Ticket>, temp: seq<nat>, t: nat)
    requires IdsBelow(temp, |tks0|) && t < |tks0|
    requires WithinCap(tks0, temp) && UsersAt(tks0, temp, tks0[t].user) < UserCap
    ensures WithinCap(tks0, temp + [t])
  {
    forall u ensures UsersAt(tks0, temp + [t], u) <= UserCap {
      UsersAtSnoc(tks0, temp, t, u);
    }
  }

  /** Seating `maps[i]` at the open table keeps the packing state. */
  lemma PlaceStep(tks0: seq<Ticket>, queue: seq<nat>, base: nat, taken: set<nat>, day: DayRef,
                  tks: seq<Ticket>, maps: seq<nat>, temp: seq<nat>, j: nat, made: seq<Table>, i: nat)
    requires Distinct(queue)
    requires Packing(tks0, queue, base, taken, day, tks, maps, temp, j, made)
    requires i < |maps| && |temp| < Capacity && j !in taken
    requires UsersAt(tks0, temp, tks0[maps[i]].user) < UserCap
    ensures Packing(tks0, queue, base, taken, day,
                    tks[maps[i] := Seated(tks0[maps[i]], j, |temp|)], maps[..i] + maps[i + 1..],
                    temp + [maps[i]], j, made)
  {
    var t := maps[i];
    var tks' := tks[t := Seated(tks0[t], j, |temp|)];
    var maps' := maps[..i] + maps[i + 1..];
    SpliceConserves(queue, made, temp, maps, i);
    PlaceRecorded(tks0, tks, made, temp, j, t);
    PlaceCapped(tks0, temp, t);
    PlaceUntouched(tks0, tks, queue, maps, i, Seated(tks0[t], j, |temp|));
    SpliceBelow(maps, temp, i, |tks0|);
  }

  lemma SpliceBelow(maps: seq<nat>, temp: seq<nat>, i: nat, n: nat)
    requires IdsBelow(maps, n) && IdsBelow(temp, n) && i < |maps|
    ensures IdsBelow(maps[..i] + maps[i + 1..], n) && IdsBelow(temp + [maps[i]], n)
  {
  }

  lemma PlaceUntouched(tks0: seq<Ticket>, tks: seq<Ticket>, queue: seq<nat>, maps: seq<nat>, i: nat, v: Ticket)
    requires |tks| == |tks0| && i < |maps| && maps[i] < |tks0|
    requires Untouched(tks0, tks, queue, maps)
    requires maps[i] in queue && maps[i] !in maps[..i] + maps[i + 1..]
    ensures Untouched(tks0, tks[maps[i] := v], queue, maps[..i] + maps[i + 1..])
  {
    var maps' := maps[..i] + maps[i + 1..];
    forall t' | 0 <= t' < |tks0| && (t' in maps' || t' !in queue)
      ensures tks[maps[i] := v][t'] == tks0[t']
    {
      assert t' in maps' ==> t' in maps;
    }
  }

  lemma CloseSaved(tks0: seq<Ticket>, base: nat, taken: set<nat>, day: DayRef, j: nat, made: seq<Table>, temp: seq<nat>)
    requires SavedOk(tks0, base, taken, day, j, made) && base <= j && j !in taken
    requires 1 <= |temp| <= Capacity && IdsBelow(temp, |tks0|) && WithinCap(tks0, temp)
    ensures SavedOk(tks0, base, taken, day, j + 1, made + [Table(j, day, temp)])
  {
  }

  lemma CloseRecorded(tks0: seq<Ticket>, tks: seq<Ticket>, made: seq<Table>, temp: seq<nat>, j: nat, day: DayRef)
    requires |tks| == |tks0| && IdsBelow(temp, |tks0|) && SeatsBelow(made, |tks0|)
    requires Recorded(tks0, tks, made, temp, j)
    ensures SeatsBelow(made + [Table(j, day, temp)], |tks0|)
    ensures Recorded(tks0, tks, made + [Table(j, day, temp)], [], j + 1)
  {
    var made' := made + [Table(j, day, temp)];
    forall x, k | 0 <= x < |made'| && 0 <= k < |made'[x].seats|
      ensures tks[made'[x].seats[k]] == Seated(tks0[made'[x].seats[k]], made'[x].id, k)
    {
      if x < |made| { assert made'[x] == made[x]; }
    }
  }

  /** Saving the open table keeps the packing state. */
  lemma CloseStep(tks0: seq<Ticket>, queue: seq<nat>, base: nat, taken: set<nat>, day: DayRef,
                  tks: seq<Ticket>, maps: seq<nat>, temp: seq<nat>, j: nat, made: seq<Table>)
    requires Packing(tks0, queue, base, taken, day, tks, maps, temp, j, made)
    requires |temp| > 0
    ensures Packing(tks0, queue, base, taken, day, tks, maps, [], j + 1, made + [Table(j, day, temp)])
  {
    SeatsSnoc(made, Table(j, day, temp));
    assert Seats(made + [Table(j, day, temp)]) + [] + maps == Seats(made) + temp + maps;
    CloseSaved(tks0, base, taken, day, j, made, temp);
    CloseRecorded(tks0, tks, made, temp, j, day);
  }

  /** Moving to a later id while no table is open keeps the packing state. */
  lemma SkipStep(tks0: seq<Ticket>, queue: seq<nat>, base: nat, taken: set<nat>, day: DayRef,
                 tks: seq<Ticket>, maps: seq<nat>, temp: seq<nat>, j: nat, made: seq<Table>, j': nat)
    requires Packing(tks0, queue, base, taken, day, tks, maps, temp, j, made)
    requires j <= j' && (|temp| > 0 ==> j' == j)
    ensures Packing(tks0, queue, base, taken, day, tks, maps, temp, j', made)
  {
  }

  /** One scan of the working list for the open table `temp` at id `j`: the
      body of the packing loop's inner `for`. Each ticket whose user holds
      fewer than two seats of the open table is seated and spliced out; any
      other one is skipped and counted in `avoid`. The scan stops when the
      table is saved, because it reached 10 seats or the list ran empty. */
  method Scan(ghost tks0: seq<Ticket>, ghost queue: seq<nat>, ghost base: nat, taken: set<nat>, day: DayRef,
              tks_in: seq<Ticket>, maps_in: seq<nat>, temp_in: seq<nat>, avoid_in: nat, j_in: nat, made_in: seq<Table>,
              snapshot: seq<Ticket>)
    returns (tks: seq<Ticket>, maps: seq<nat>, temp: seq<nat>, avoid: nat, j: nat, made: seq<Table>)
    requires snapshot == tks0 && Distinct(queue)
    requires Packing(tks0, queue, base, taken, day, tks_in, maps_in, temp_in, j_in, made_in)
    requires |temp_in| < Capacity && (|maps_in| == 0 ==> |temp_in| == 0) && j_in !in taken
    ensures Packing(tks0, queue, base, taken, day, tks, maps, temp, j, made)
    ensures |temp| < Capacity && (|maps| == 0 ==> |temp| == 0)
    ensures |maps| <= |maps_in|
    ensures |maps| == |maps_in| ==>
              maps == maps_in && temp == temp_in && avoid == avoid_in + |maps_in| && j == j_in && made == made_in
    ensures |maps_in| > 0 && |temp_in| == 0 ==> |maps| < |maps_in|
    ensures |maps_in| > 0 && |temp| == 0 ==> avoid == 0
  {
    tks, maps, temp, avoid, j, made := tks_in, maps_in, temp_in, avoid_in, j_in, made_in;
    var i := 0;
    var closed := false;
    while i < |maps| && !closed
      invariant 0 <= i <= |maps| <= |maps_in|
      invariant Packing(tks0, queue, base, taken, day, tks, maps, temp, j, made)
      invariant |temp| < Capacity && (|maps| == 0 ==> |temp| == 0)
      invariant closed ==> |temp| == 0 && avoid == 0 && |maps| < |maps_in|
      invariant !closed ==> j == j_in
      invariant |maps| == |maps_in| ==> maps == maps_in && temp == temp_in && avoid == avoid_in + i && !closed && made == made_in
      invariant |maps| == |maps_in| && |temp_in| == 0 ==> i == 0
      invariant |maps| < |maps_in| && !closed ==> |temp| > 0
      decreases |maps| - i
    {
      var t := maps[i];
      if UsersAt(snapshot, temp, snapshot[t].user) < UserCap {
        PlaceStep(tks0, queue, base, taken, day, tks, maps, temp, j, made, i);
        tks := tks[t := Seated(snapshot[t], j, |temp|)];
        temp := temp + [t];
        maps := maps[..i] + maps[i + 1..];
        avoid := 0;
        if |temp| == Capacity || |maps| == 0 {
          CloseStep(tks0, queue, base, taken, day, tks, maps, temp, j, made);
          made := made + [Table(j, day, temp)];
          j := j + 1;
          temp := [];
          closed := true;
        }
      } else {
        avoid := avoid + 1;
        i := i + 1;
      }
    }
  }

  /** Packs the tickets `queue` (distinct ids, in query order) into new
      tables of `day`, starting at id `base` and skipping the ids in
      `taken`. Returns the updated tickets and the saved tables in the order
      they were saved. */
  method Pack(tks0: seq<Ticket>, queue: seq<nat>, base: nat, taken: set<nat>, day: DayRef)
    returns (tks: seq<Ticket>, made: seq<Table>)
    requires IdsBelow(queue, |tks0|) && Distinct(queue)
    ensures |tks| == |tks0|
    // every queued ticket is seated exactly once, and nothing else is
    ensures multiset(Seats(made)) == multiset(queue)
    // 1..10 seats per table, at most two per user
    ensures forall x :: 0 <= x < |made| ==> WellPacked(tks0, made[x], day)
    // fresh, strictly increasing ids from `base` on
    ensures forall x :: 0 <= x < |made| ==> base <= made[x].id && made[x].id !in taken
    ensures forall x, y :: 0 <= x < y < |made| ==> made[x].id < made[y].id
    // one history entry per seating, naming the table and seat; `day` kept
    ensures SeatsBelow(made, |tks0|)
    ensures forall x, k :: 0 <= x < |made| && 0 <= k < |made[x].seats| ==>
              tks[made[x].seats[k]] == Seated(tks0[made[x].seats[k]], made[x].id, k)
    ensures forall t :: 0 <= t < |tks0| && t !in queue ==> tks[t] == tks0[t]
  {
    tks, made := tks0, [];
    var maps := queue;
    var temp: seq<nat> := [];
    var avoid: nat := 0;
    var j := base;
    assert Seats(made) + temp + maps == queue;
    while |maps| > 0
      invariant Packing(tks0, queue, base, taken, day, tks, maps, temp, j, made)
      invariant |temp| < Capacity && (|maps| == 0 ==> |temp| == 0)
      decreases |maps|, (if |temp| == 0 then 0 else 1), (if avoid > |maps| then 0 else |maps| + 1 - avoid)
    {
      // the id check at the top of the loop; an open table keeps its id
      var j' := NextFree(taken, j);
      SkipStep(tks0, queue, base, taken, day, tks, maps, temp, j, made, j');
      j := j';
      tks, maps, temp, avoid, j, made := Scan(tks0, queue, base, taken, day, tks, maps, temp, avoid, j, made, tks0);
      if |maps| > 0 && avoid > |maps| {
        // the escape valve: every remaining ticket is capped out here
        CloseStep(tks0, queue, base, taken, day, tks, maps, temp, j, made);
        made := made + [Table(j, day, temp)];
        j := j + 1;
        temp := [];
      }
    }
    assert Seats(made) + temp + maps == Seats(made);
  }

  lemma UsersAtSingleOwner(tks: seq<Ticket>, seats: seq<nat>, u: nat)
    requires IdsBelow(seats, |tks|)
    requires forall k :: 0 <= k < |seats| ==> tks[seats[k]].user == u
    ensures UsersAt(tks, seats, u) == |seats|
  {
    if |seats| > 0 {
      UsersAtSingleOwner(tks, seats[..|seats| - 1], u);
    }
  }

  lemma {:induction false} SeatsAtMost(made: seq<Table>, c: nat)
    requires forall x :: 0 <= x < |made| ==> |made[x].seats| <= c
    ensures |Seats(made)| <= c * |made|
  {
    if |made| > 0 {
      SeatsAtMost(made[..|made| - 1], c);
    }
  }

  lemma {:induction false} IdsClimb(made: seq<Table>, base: nat)
    requires |made| > 0
    requires forall x :: 0 <= x < |made| ==> base <= made[x].id
    requires forall x, y :: 0 <= x < y < |made| ==> made[x].id < made[y].id
    ensures made[|made| - 1].id >= base + |made| - 1
  {
    if |made| > 1 {
      IdsClimb(made[..|made| - 1], base);
    }
  }

  /** If every queued ticket belongs to one user, each table of a pass takes
      at most two of them, so the pass needs at least half as many tables as
      tickets. */
  lemma SingleOwnerSpreads(tks0: seq<Ticket>, queue: seq<nat>, day: DayRef, made: seq<Table>, u: nat)
    requires IdsBelow(queue, |tks0|)
    requires forall k :: 0 <= k < |queue| ==> tks0[queue[k]].user == u
    requires multiset(Seats(made)) == multiset(queue)
    requires forall x :: 0 <= x < |made| ==> WellPacked(tks0, made[x], day)
    ensures |queue| <= UserCap * |made|
  {
    forall x | 0 <= x < |made| ensures |made[x].seats| <= UserCap {
      forall k | 0 <= k < |made[x].seats| ensures tks0[made[x].seats[k]].user == u {
        InSeats(made, x, k);
        assert made[x].seats[k] in multiset(queue);
      }
      UsersAtSingleOwner(tks0, made[x].seats, u);
    }
    SeatsAtMost(made, UserCap);
    assert |multiset(Seats(made))| == |multiset(queue)|;
  }

  /** Rooms are provisioned as `ceil(n / 20000)`, as if every table were
      full. A pool of 4002 to 20000 tickets of one user gets one room, yet a
      pass from id 0 saves its last table in room 1 or later, a room number
      this pass did not provision. */
  lemma ShortTablesOutrunRooms(tks0: seq<Ticket>, queue: seq<nat>, day: DayRef, made: seq<Table>, u: nat)
    requires IdsBelow(queue, |tks0|) && 4002 <= |queue| <= SeatsPerRoom
    requires forall k :: 0 <= k < |queue| ==> tks0[queue[k]].user == u
    requires multiset(Seats(made)) == multiset(queue)
    requires forall x :: 0 <= x < |made| ==> WellPacked(tks0, made[x], day)
    requires forall x, y :: 0 <= x < y < |made| ==> made[x].id < made[y].id
    ensures RoomCount(|queue|) == 1
    ensures |made| > 0 && PlacementOf(made[|made| - 1].id, 0).room >= RoomCount(|queue|)
  {
    SingleOwnerSpreads(tks0, queue, day, made, u);
    IdsClimb(made, 0);
  }
}

=== FILE: store_view.dfy ===
/** Views of the store shared by the handlers: the seats of a day, the seat
    lists a room draw or the final room loads, the room-creation loop, the
    last day of the event, and the invariant the handlers keep. */
module StoreView {
  import opened Records
  import opened TableIds
  import opened SeatPacker
  import opened Elimination

  /** All seats of the tables of day `d`, table after table. */
  function DaySeats(ts: seq<Table>, d: DayRef): seq<nat> {
    if |ts| == 0 then []
    else DaySeats(ts[..|ts| - 1], d) + (if ts[|ts| - 1].day == d then ts[|ts| - 1].seats else [])
  }

  lemma {:induction false} DaySeatsAppend(ts: seq<Table>, more: seq<Table>, d: DayRef)
    requires forall x :: 0 <= x < |more| ==> more[x].day == d
    ensures DaySeats(ts + more, d) == DaySeats(ts, d) + Seats(more)
    decreases |more|
  {
    if |more| == 0 {
      assert ts + more == ts;
    } else {
      var init := more[..|more| - 1];
      assert (ts + more)[..|ts + more| - 1] == ts + init;
      DaySeatsAppend(ts, init, d);
    }
  }

  /** The seat lists of the tables `wanted` accepts, in collection order. */
  function SeatLists(ts: seq<Table>, wanted: Table -> bool): (r: seq<seq<nat>>)
    ensures var ids := Query(ts, wanted);
            |r| == |ids| && forall k :: 0 <= k < |r| ==> r[k] == ts[ids[k]].seats
  {
    var ids := Query(ts, wanted);
    seq(|ids|, k requires 0 <= k < |ids| => ts[ids[k]].seats)
  }

  /** Some room of day `d` carries number `k`. */
  predicate HasRoom(rooms: seq<Room>, k: nat, d: DayRef) {
    exists x :: 0 <= x < |rooms| && rooms[x].number == k && rooms[x].day == d
  }

  /** What the room loop over `from..count-1` of day `d` leaves behind,
      from `rooms` and `listed` to `r`: rooms are only appended, each of
      them an unused room of the day not there before and listed on the
      day, every number in range has a room, and no other number changes. */
  predicate RoomsEnsured(rooms: seq<Room>, listed: seq<nat>, d: DayRef, from: nat, count: nat, r: (seq<Room>, seq<nat>)) {
    && |rooms| <= |r.0| && r.0[..|rooms|] == rooms
    && (forall k :: from <= k < count ==> HasRoom(r.0, k, d))
    && (forall k :: 0 <= k < |r.0| && !(from <= k < count) ==> (HasRoom(r.0, k, d) <==> HasRoom(rooms, k, d)))
    && (forall x :: |rooms| <= x < |r.0| ==> r.0[x].day == d && !r.0[x].drawn && !HasRoom(rooms, r.0[x].number, d))
    && |r.1| == |listed| + |r.0| - |rooms| && r.1[..|listed|] == listed
    && (forall k :: |listed| <= k < |r.1| ==> |rooms| <= r.1[k] < |r.0|)
  }

  /** The room-creation loop of a packing pass: each room `from..count-1`
      of day `d` that has no record yet is created and listed on the day. */
  function EnsureRooms(rooms: seq<Room>, listed: seq<nat>, d: DayRef, from: nat, count: nat): (r: (seq<Room>, seq<nat>))
    ensures RoomsEnsured(rooms, listed, d, from, count, r)
    decreases count - from
  {
    if from >= count then (rooms, listed)
    else
      var missing := FindRoom(rooms, from, d).None?;
      var rooms' := if missing then rooms + [Room(from, d, false)] else rooms;
      var listed' := if missing then listed + [|rooms|] else listed;
      var r := EnsureRooms(rooms', listed', d, from + 1, count);
      RoomStep(rooms, listed, d, from, count, r);
      r
  }

  /** Ensuring room `from` first, then the rooms after it, ensures all. */
  lemma RoomStep(rooms: seq<Room>, listed: seq<nat>, d: DayRef, from: nat, count: nat, r: (seq<Room>, seq<nat>))
    requires from < count
    requires var missing := FindRoom(rooms, from, d).None?;
             RoomsEnsured(if missing then rooms + [Room(from, d, false)] else rooms,
                          if missing then listed + [|rooms|] else listed, d, from + 1, count, r)
    ensures RoomsEnsured(rooms, listed, d, from, count, r)
  {
    var missing := FindRoom(rooms, from, d).None?;
    var rooms' := if missing then rooms + [Room(from, d, false)] else rooms;
    var listed' := if missing then listed + [|rooms|] else listed;
    RoomEnsured(rooms, from, d);
    assert r.0[..|rooms'|] == rooms';
    assert forall x :: 0 <= x < |rooms| ==> r.0[x] == rooms[x] by {
      forall x | 0 <= x < |rooms| ensures r.0[x] == rooms[x] {
        assert r.0[x] == r.0[..|rooms'|][x];
      }
    }
    assert HasRoom(r.0, from, d) by {
      var x :| 0 <= x < |rooms'| && rooms'[x].number == from && rooms'[x].day == d;
      assert r.0[x] == r.0[..|rooms'|][x];
    }
    assert r.1[..|listed|] == listed by {
      assert r.1[..|listed'|] == listed';
      assert listed'[..|listed|] == listed;
    }
    forall k | |listed| <= k < |r.1| ensures |rooms| <= r.1[k] < |r.0| {
      if k < |listed'| {
        assert missing && k == |listed|;
        assert r.1[k] == r.1[..|listed'|][k] == listed'[k] == |rooms|;
      }
    }
  }

  /** One step of the room loop: room `from` of day `d` exists afterwards,
      and no other room number changes its presence. */
  lemma RoomEnsured(rooms: seq<Room>, from: nat, d: DayRef)
    ensures var rooms' := if FindRoom(rooms, from, d).None? then rooms + [Room(from, d, false)] else rooms;
            && HasRoom(rooms', from, d)
            && forall k :: k != from ==> (HasRoom(rooms', k, d) <==> HasRoom(rooms, k, d))
  {
    var rooms' := if FindRoom(rooms, from, d).None? then rooms + [Room(from, d, false)] else rooms;
    if FindRoom(rooms, from, d).Some? {
      assert rooms[FindRoom(rooms, from, d).value].number == from;
    } else {
      assert rooms'[|rooms|].number == from;
    }
    forall k | k != from && HasRoom(rooms', k, d) ensures HasRoom(rooms, k, d) {
      var x :| 0 <= x < |rooms'| && rooms'[x].number == k && rooms'[x].day == d;
      assert x < |rooms|;
      assert rooms[x] == rooms'[x];
    }
    forall k | HasRoom(rooms, k, d) ensures HasRoom(rooms', k, d) {
      var x :| 0 <= x < |rooms| && rooms[x].number == k && rooms[x].day == d;
      assert rooms'[x] == rooms[x];
    }
  }

  /** The index of the day of event `ev` with the highest number (the first
      such in collection order): a `findOne` sorted by number descending. */
  function LastDay(days: seq<Day>, ev: nat, n: nat := |days|): (r: Option<nat>)
    requires n <= |days|
    ensures r.Some? ==> r.value < n && days[r.value].ref.event == ev
    ensures r.Some? ==> forall x :: 0 <= x < n && days[x].ref.event == ev ==> days[x].ref.number <= days[r.value].ref.number
    ensures r.Some? ==> forall x :: 0 <= x < r.value && days[x].ref.event == ev ==> days[x].ref.number < days[r.value].ref.number
    ensures r.None? <==> forall x :: 0 <= x < n ==> days[x].ref.event != ev
  {
    if n == 0 then None
    else
      var prev := LastDay(days, ev, n - 1);
      var d := days[n - 1];
      if d.ref.event != ev then prev
      else if prev.Some? && d.ref.number <= days[prev.value].ref.number then prev
      else Some(n - 1)
  }

  /** The number of tickets `wanted` accepts is the size of the set of
      their ids: a `count()` is exact. */
  lemma CountIsCard<T>(tks: seq<T>, wanted: T -> bool)
    ensures Count(tks, wanted) == |Elems(Query(tks, wanted))|
  {
    var ids := Query(tks, wanted);
    forall x ensures multiset(ids)[x] <= 1 {
      if x in ids { assert multiset(ids)[x] == 1; } else { assert multiset(ids)[x] == 0; }
    }
    DistinctCard(ids);
  }

  /** The number of tickets past day `n`, counted as a set of ids. */
  function Beyond(tks: seq<Ticket>, n: nat): nat {
    |set t | 0 <= t < |tks| && tks[t].day > n|
  }

  /** The `countDocuments({day: {$gt: n}})` the handlers store: exactly the
      number of tickets past day `n`. */
  function CountBeyond(tks: seq<Ticket>, n: nat): (r: nat)
    ensures r == Beyond(tks, n)
  {
    var wanted := (t: Ticket) => t.day > n;
    CountIsCard(tks, wanted);
    assert Elems(Query(tks, wanted)) == set t | 0 <= t < |tks| && tks[t].day > n;
    Count(tks, wanted)
  }

  /** The table ids in use on day `d`. */
  function DayIds(ts: seq<Table>, d: DayRef): set<nat> {
    set x | 0 <= x < |ts| && ts[x].day == d :: ts[x].id
  }

  /** The table ids in use on any day. */
  function AllIds(ts: seq<Table>): set<nat> {
    set x | 0 <= x < |ts| :: ts[x].id
  }

  /** Tables belong to a known event and, when it is the current one, hold
      1 to 10 existing tickets; a table id is used once per day. */
  ghost predicate TablesOk(s: Store) {
    && (forall x :: 0 <= x < |s.tables| ==> s.tables[x].day.event <= |s.past|)
    && (s.current.None? ==> forall x :: 0 <= x < |s.tables| ==> s.tables[x].day.event < |s.past|)
    && (forall x :: 0 <= x < |s.tables| && s.tables[x].day.event == |s.past| ==>
          1 <= |s.tables[x].seats| <= Capacity && IdsBelow(s.tables[x].seats, |s.tickets|))
    && (forall x, y :: 0 <= x < y < |s.tables| && s.tables[x].day == s.tables[y].day ==> s.tables[x].id != s.tables[y].id)
  }

  /** Day room lists point at room records. */
  predicate RoomListsOk(s: Store) {
    forall e, k :: 0 <= e < |s.days| && 0 <= k < |s.days[e].rooms| ==> s.days[e].rooms[k] < |s.rooms|
  }

  /** What the handlers keep true of the store: the current event is not
      archived, the tables are sound, the room lists resolve. */
  ghost predicate Valid(s: Store) {
    && (s.current.Some? ==> s.current.value.status <= 2)
    && TablesOk(s)
    && RoomListsOk(s)
  }

  /** A step that leaves the tables and the archive alone, keeps the event
      open, keeps the tickets' number and keeps the room lists resolvable
      keeps the invariant. */
  lemma ValidFrame(s: Store, s': Store)
    requires Valid(s)
    requires s'.current.Some? == s.current.Some? && (s'.current.Some? ==> s'.current.value.status <= 2)
    requires s'.past == s.past && s'.tables == s.tables
    requires |s.tickets| <= |s'.tickets| && RoomListsOk(s')
    ensures Valid(s')
  {
  }

  /** Room lists stay resolvable when rooms are only appended, old days keep
      their lists and new days start with none. */
  lemma RoomListsGrow(s: Store, s': Store)
    requires RoomListsOk(s) && |s.rooms| <= |s'.rooms| && |s.days| <= |s'.days|
    requires forall e :: 0 <= e < |s.days| ==> s'.days[e].rooms == s.days[e].rooms
    requires forall e :: |s.days| <= e < |s'.days| ==> s'.days[e].rooms == []
    ensures RoomListsOk(s')
  {
  }

  /** Appending freshly packed tables of a current-event day keeps the
      table part of the invariant. */
  lemma AppendTablesValid(s: Store, made: seq<Table>, d: DayRef, s': Store)
    requires Valid(s) && s.current.Some? && d.event == |s.past|
    requires s'.current == s.current && s'.past == s.past && |s.tickets| <= |s'.tickets|
    requires s'.tables == s.tables + made
    requires RoomListsOk(s')
    requires forall x :: 0 <= x < |made| ==> made[x].day == d && 1 <= |made[x].seats| <= Capacity
    requires forall x :: 0 <= x < |made| ==> IdsBelow(made[x].seats, |s'.tickets|)
    requires forall x :: 0 <= x < |made| ==> made[x].id !in DayIds(s.tables, d)
    requires forall x, y :: 0 <= x < y < |made| ==> made[x].id < made[y].id
    ensures Valid(s')
  {
    var ts := s'.tables;
    forall x, y | 0 <= x < y < |ts| && ts[x].day == ts[y].day ensures ts[x].id != ts[y].id {
      if y >= |s.tables| && x < |s.tables| {
        assert ts[x].id in DayIds(s.tables, d);
      }
    }
  }

  /** No event's status went down from `s` to `s'`: archived events stay as
      they were, the current event keeps or raises its status, and an event
      the step archived ends at least where it stood. */
  predicate StatusRaised(s: Store, s': Store) {
    && |s.past| <= |s'.past| && s'.past[..|s.past|] == s.past
    && (s.current.Some? && |s'.past| == |s.past| ==> s'.current.Some? && s.current.value.status <= s'.current.value.status)
    && (s.current.Some? && |s'.past| > |s.past| ==> s.current.value.status <= s'.past[|s.past|].status)
  }
}

=== FILE: table_ids.dfy ===
/** Table-identifier arithmetic: how a table id encodes a room, which ids a
    room draw selects, how many rooms a packing pass provisions, and the
    search for the next unused id. */
module TableIds {
  import opened Records

  const TablesPerRoom: nat := 2000
  const SeatsPerRoom: nat := 20000

  /** The history entry a packing pass records for seat `seat` of table `id`. */
  function PlacementOf(id: nat, seat: nat): (p: Placement)
    ensures p.room * TablesPerRoom + p.table == id
    ensures p.table < TablesPerRoom && p.seat == seat
  {
    Placement(id / TablesPerRoom, id % TablesPerRoom, seat)
  }

  /** The id range a room draw (and the "filled" check) selects for room `r`:
      strictly above `2000 r`, up to and including `2000 r + 2000`. */
  predicate InRoomRange(id: nat, r: nat) {
    r * TablesPerRoom < id <= r * TablesPerRoom + TablesPerRoom
  }

  /** `ceil(n / 20000)`: the rooms a packing pass of `n` tickets provisions. */
  function RoomCount(n: nat): (c: nat)
    ensures n <= c * SeatsPerRoom
    ensures c > 0 ==> (c - 1) * SeatsPerRoom < n
  {
    (n + SeatsPerRoom - 1) / SeatsPerRoom
  }

  /** A strict upper bound of a finite set of ids. */
  ghost function Ceiling(taken: set<nat>): (c: nat)
    ensures forall x :: x in taken ==> x < c
  {
    if taken == {} then 0
    else
      var y :| y in taken;
      var c := Ceiling(taken - {y});
      assert forall x :: x in taken ==> x == y || x in taken - {y};
      if c <= y then y + 1 else c
  }

  /** The least id `>= j` that is not taken: what the packing loop's
      "if the id exists, try the next one" reaches. */
  function NextFree(taken: set<nat>, j: nat): (r: nat)
    ensures j <= r && r !in taken
    ensures forall k :: j <= k < r ==> k in taken
    decreases Ceiling(taken) - j
  {
    if j in taken then NextFree(taken, j + 1) else j
  }

  /** A room number and the room-draw range agree on a table id exactly when
      the id is not a multiple of 2000: the history calls table `2000 r`
      seat holder of room `r`, while the draw of room `r - 1` selects it. */
  lemma RangeMatchesHistory(id: nat, r: nat)
    ensures (InRoomRange(id, r) && PlacementOf(id, 0).room == r) <==> (id % TablesPerRoom != 0 && id / TablesPerRoom == r)
  {
    if id % TablesPerRoom != 0 && id / TablesPerRoom == r {
      assert id == r * TablesPerRoom + id % TablesPerRoom;
    }
  }

  /** Every table id lies in exactly one room's draw range, except id 0,
      which lies in none, so the table with id 0 is never drawn by a room
      draw. */
  lemma RangeOwner(id: nat, r: nat)
    ensures InRoomRange(id, r) <==> (id > 0 && r == (id - 1) / TablesPerRoom)
  {
    if id > 0 && r == (id - 1) / TablesPerRoom {
      assert (id - 1) == r * TablesPerRoom + (id - 1) % TablesPerRoom;
    }
    if InRoomRange(id, r) {
      var q := (id - 1) / TablesPerRoom;
      assert id - 1 == q * TablesPerRoom + (id - 1) % TablesPerRoom;
      assert r * TablesPerRoom <= id - 1 < r * TablesPerRoom + TablesPerRoom;
      assert q == r;
    }
  }

  /** The first table a satellite room `r > 0` packs, id `2000 r`, is
      recorded under room `r` but drawn with room `r - 1`. */
  lemma SatelliteFirstTableDrawnElsewhere(r: nat)
    requires r > 0
    ensures PlacementOf(r * TablesPerRoom, 0).room == r
    ensures InRoomRange(r * TablesPerRoom, r - 1) && !InRoomRange(r * TablesPerRoom, r)
  {
    RangeOwner(r * TablesPerRoom, r - 1);
    RangeOwner(r * TablesPerRoom, r);
  }
}
